=== FILE: README.md ===
# CsmaAck MAC decision engine in Dafny

This project models the `CsmaAck` medium-access-control module of MiXiM
(`development/MiXiM/csmaack.cc`). The module combines CSMA with low-power
listening, stop-and-wait ARQ, a doubling backoff window and a NAV
(virtual carrier sense) deadline. It is a single-threaded, event-driven state
machine. Every handler runs to completion, so each one is modelled as a pure
function from the module state to a new state plus a list of effects.

- `MacTypes` (`types.dfy`): the module state `Mac` covers `proto_state`,
  `proto_next_state`, `tx_msg`, `packet_retries`, `data_contend_time`,
  `nav_state`, `nav_end_time`, `ack_to` and the `stat_tx_drop`/`stat_tx`/`stat_rx`
  counters. The header constants and the node identity are in `Config`. The
  per-event inputs are in `Env`: the 16-bit clock, `isReceiving()`, whether
  the RSSI sample exceeds 0.5, and the draw behind `intuniform`. `Effect`
  lists radio commands, timer arm/cancel, and upward callbacks. `ushort` is
  the source's unsigned 16-bit type, with wrap-around addition and
  subtraction.
- `Backoff` (`backoff.dfy`): `incBackoff` doubles the window and caps it;
  `decBackoff` resets it. The closed form of the window after k doublings is
  proved here.
- `Nav` (`nav.dfy`): `updateNav`, with its 16-bit wrap-around arithmetic.
- `CsmaAck` (`csmaack.dfy`): one function per handler and helper:
  `initialize`, `txPacket`, `evalState`, `setIdle`, `startContending`,
  `rxFrame`, `transmitDone`, `rxFailed`, `rxStarted`, `protocolTimeout`
  (split into the CONTEND and WFACK branches), `sendAck`, `sendData`,
  `receiveAck`, `receiveData`, `navTimeout` and `timeout`. `evalState`,
  `startContending` and `setIdle` call each other, just as in the source.
- `Invariant` (`invariant.dfy`): a state invariant that every handler
  preserves. Under it, transmit-done after DATA never fails. A contention
  timeout that fires while the radio is not receiving fails only on the
  line-218 assertion, when the remembered ACK target is a negative node id.
  A timeout while receiving still fails the line-171 assertion.
- `Traces` (`traces.dfy`): runs over fixed event scripts, with the same
  environment inputs for every event. Consider a unicast send with R retries
  whose every wait ends by the ack timer. Its script makes exactly R+1 DATA
  attempts and reports failure once. An acknowledged send reports success
  once, and the ACK a node sends goes to the sender of the DATA it
  acknowledges. A wait cut short by a foreign frame costs an attempt but no
  retry (see Findings).

Each `assert` in the source that depends on the state or on a received frame
is modelled as `Fail(Abort)` in the result, except the one at line 87 in
`startContending`: it is a precondition of `StartContending`, which both
callers meet by setting the pending action just before the call (lines 71-72
and 286-287). A null dereference of `tx_msg` is
modelled the same way. The asserts on compile-time constants become
`ValidConfig`: contention windows are at least 5 and `NAV_ACK` is positive.

Behaviour kept as the code has it:
- `evalState` always contends with the constant `DATA_CONTEND_TIME`
  (line 72). The backoff window is updated but never read.
- When retries run out (lines 196-200), the packet is released but the state
  stays WFACK. So "WFACK implies a held packet" is not invariant:
  `Traces.UnicastWithoutAck` reaches that state.
- A packet offered while another is held is deleted and counted. The layer
  above gets no completion callback for it (lines 46-50).
- A busy RSSI sample at the contention timeout calls `setIdle` only
  (line 178). The pending action is not cleared. When it was SEND_ACK the
  ACK is lost: with a packet held, evalState overwrites it with SEND_DATA
  (line 71); with none held, the machine idles with SEND_ACK pending, which
  nothing consumes until the next packet overwrites it
  (`Traces.RssiAbortLosesAck`).
- A broadcast reception sets the pending state to IDLE, not NONE (line 289).
- While waiting for an ACK, any non-ACK frame ends the wait, including DATA
  addressed to this node. So does an ACK for another node. An ACK to this
  node from the wrong sender is ignored, and the wait continues (lines 105-113).
- A frame that ends the wait for an ACK doubles the window but leaves
  `packet_retries` alone (lines 105-113). So the number of DATA attempts for
  one packet is not bounded by the retry budget
  (`Traces.InterruptedSendWithoutAck`).
- After the retries run out, an ACK addressed to this node dereferences the
  NULL `tx_msg` (line 252). A packet sent in that state is held but not sent
  until some frame ends the wait (`Traces.SendAfterExhaustionIsSilent`,
  `Traces.StuckSendResumedByFrame`).
- `packet_retries` is post-decremented in both branches (line 196), so it
  ends at -1 after the last attempt. The header that declares it is not part
  of this model; it is modelled as a signed integer.

## Model

| member | source | states |
|---|---|---|
| CsmaAck.Initialize | development/MiXiM/csmaack.cc:21-35 | starts idle with nothing pending or held, NAV clear, window at its base, radio listening |
| CsmaAck.TxPacket | development/MiXiM/csmaack.cc:43-55 | a packet offered while one is held only increments the drop counter: held packet, state, pending action and retries are unchanged and nothing is emitted; otherwise the packet is held with the full retry budget, and then an idle, non-receiving node contends for DATA under a clear NAV (nothing else changes) or sleeps under a busy NAV, while a busy or receiving node changes nothing else and emits nothing |
| CsmaAck.EvalState | development/MiXiM/csmaack.cc:62-84 | an idle, non-receiving machine sleeps under a busy NAV, listens with nothing to send, and otherwise contends for DATA with a delay in [5, DATA_CONTEND_TIME]; in any other state nothing happens |
| CsmaAck.SetIdle | development/MiXiM/csmaack.cc:57-60 | the machine ends idle or, if it holds a packet and the NAV is clear, contending for it |
| CsmaAck.StartContending | development/MiXiM/csmaack.cc:86-100 | with the NAV busy the pending action becomes NONE and the machine goes idle with no timer armed; otherwise it contends, listens and arms the protocol timer with a delay in [5, time] |
| CsmaAck.ContentionDelayCovers | development/MiXiM/csmaack.cc:95 | every delay in [5, time] is produced by some draw, so the modelled draw loses no behaviour of intuniform |
| CsmaAck.RxFrame | development/MiXiM/csmaack.cc:102-126 | any frame arriving in WFACK that is not an ACK to this node (DATA of any address, or an ACK for another node) cancels the ack timer and doubles the window, keeping the packet and the retry count; an ACK to this node from the wrong sender leaves state and effects unchanged; the expected ACK releases the packet, resets the window and reports TX_DONE; in every state a DATA frame never fails, is delivered upward exactly when addressed to this node or broadcast, and leaves the held packet and retries alone; an idle node with a clear NAV receiving unicast DATA contends to ACK its sender; an ACK outside WFACK is ignored and the machine only re-evaluates, and an ACK to node -1 always fails |
| CsmaAck.TransmitDone | development/MiXiM/csmaack.cc:128-150 | after DATA the state becomes the pending state; the ack timer is armed exactly when that is WFACK; a broadcast is reported done and released, nothing else in the record changes, and the effects are the ack timer if armed, TX_DONE and listen; the radio listens last; outside SEND_DATA/SEND_ACK it fails |
| CsmaAck.RxFailed | development/MiXiM/csmaack.cc:152-154 | outside IDLE a failed reception changes nothing and emits nothing; when idle the machine re-evaluates: sleep under a busy NAV, contend for a held packet, or listen |
| CsmaAck.RxStarted | development/MiXiM/csmaack.cc:156-164 | while contending, cancels the protocol timer and goes idle with pending action NONE; in any other state changes nothing and emits nothing |
| CsmaAck.ContendTimeout | development/MiXiM/csmaack.cc:166-193 | fails on NONE pending, on receiving or on a busy NAV; a busy RSSI sample goes idle; otherwise the pending send is consumed and its frame (ACK or DATA) goes out after listen and transmit |
| CsmaAck.AckTimeout | development/MiXiM/csmaack.cc:194-205 | with 0 retries left: TX_FAILED reported, drop counted, packet released, state stays WFACK; otherwise one retry used, window doubled and the machine sent back to idle re-evaluation with the packet still held, which contends for it when the channel is quiet and the NAV clear, sleeps under a busy NAV and emits nothing while receiving |
| CsmaAck.ProtocolTimeout | development/MiXiM/csmaack.cc:166-210 | a protocol timeout outside CONTEND and WFACK is an assertion failure |
| CsmaAck.SendAck | development/MiXiM/csmaack.cc:212-226 | succeeds exactly when an ACK target is known and non-negative; the only frame put on the air is an empty ACK from this node to the remembered sender, and only the state changes |
| CsmaAck.SendData | development/MiXiM/csmaack.cc:228-245 | succeeds exactly when a packet is held and not for this node; sends its copy as DATA; pending state IDLE for broadcast and WFACK for unicast |
| CsmaAck.ReceiveAck | development/MiXiM/csmaack.cc:247-274 | the ACK from the held packet's destination, in WFACK, cancels the timer, resets the window to its base, reports TX_DONE, releases the packet and goes idle, with nothing else in the record changed and the effects exactly cancel, TX_DONE and then sleep, listen or nothing as the NAV and the radio dictate; every other ACK leaves the state unchanged |
| CsmaAck.ReceiveData | development/MiXiM/csmaack.cc:276-303 | unicast to this node: delivered, sender remembered, held packet, retries, window and NAV untouched, contention for the ACK with ACK_CONTEND_TIME under a clear NAV, and under a busy NAV idle with pending NONE, emitting only the delivery and a sleep unless receiving; broadcast: delivered, state and pending state IDLE; other: not delivered, state and pending IDLE, NAV busy for at least NAV_ACK, and nothing else changes |
| CsmaAck.NavTimeout | development/MiXiM/csmaack.cc:317-321 | the NAV becomes clear; an idle, non-receiving machine then contends for a held packet (nothing else changes) or listens; in any other state or while receiving only the NAV changes and nothing is emitted |
| CsmaAck.Timeout | development/MiXiM/csmaack.cc:325-336 | the NAV timer always succeeds and clears the NAV; the protocol timer fails outside CONTEND and WFACK |
| CsmaAck.Handle | development/MiXiM/csmaack.cc:43-336 | each event goes to its handler; a send request is rejected by assertion exactly when addressed to this node; a reception start never fails and outside contention changes nothing |
| Backoff.IncBackoff | development/MiXiM/csmaack.cc:346-350 | only the window changes, and it becomes min(2w, max); it never exceeds the maximum and a window within [base, max] stays within it |
| Backoff.DecBackoff | development/MiXiM/csmaack.cc:352-354 | only the window changes, and it becomes the base window whatever it was |
| Backoff.ResetRestartsDoubling | development/MiXiM/csmaack.cc:346-354 | after a reset, k further increments give min(base * 2^k, max), the same sequence as from a fresh start |
| Backoff.WindowAfterFailures | development/MiXiM/csmaack.cc:346-354 | from the base window, k consecutive increments give exactly min(base * 2^k, max) |
| Backoff.WindowStaysInRange | development/MiXiM/csmaack.cc:346-350 | any number of increments from the base keeps the window in [base, max] |
| Nav.UpdateNav | development/MiXiM/csmaack.cc:305-315 | acts iff the NAV is clear or t exceeds (nav_end_time - now) mod 2^16; then NAV busy, deadline now + t mod 2^16, NAV timer armed for exactly t; otherwise nothing changes; the reservation never shortens |
| Nav.TwoReservations | development/MiXiM/csmaack.cc:305-315 | two reservations a then b issued delta <= a apart leave max(a - delta, b) remaining and the later of the two deadlines |
| Invariant.InitEstablishes | development/MiXiM/csmaack.cc:21-35 | the initial state satisfies the state invariant |
| Invariant.HandlePreserves | development/MiXiM/csmaack.cc:43-336 | every handler on every input keeps the invariant: a real state; held packet not for this node; CONTEND implies NAV clear and a pending send with what it needs; SEND_DATA implies a held packet with pending state matching broadcast/unicast |
| Invariant.RxFramePreserves | development/MiXiM/csmaack.cc:102-126 | frame reception keeps the state invariant |
| Invariant.ContendTimeoutSafe | development/MiXiM/csmaack.cc:166-193 | under the invariant, a contention timeout with the radio idle passes the asserts at lines 170-172 and 191; only a negative ACK target can stop it |
| Invariant.DataTransmitDone | development/MiXiM/csmaack.cc:128-150 | under the invariant, DATA completion to a unicast enters WFACK and arms only the ack timer; to a broadcast goes idle, arms no timer, reports TX_DONE and releases the packet |
| Traces.SendAndWait | development/MiXiM/csmaack.cc:166-193 | a contention timeout followed by transmit-done puts one DATA frame on the air and enters WFACK with the packet still held |
| Traces.RetryRound | development/MiXiM/csmaack.cc:201-204 | an unanswered round with retries left makes one DATA attempt, no report, uses one retry, doubles the window and contends again |
| Traces.LastRound | development/MiXiM/csmaack.cc:196-200 | the unanswered round with no retries left makes one DATA attempt and one TX_FAILED report and leaves WFACK with nothing held |
| Traces.Exhaust | development/MiXiM/csmaack.cc:194-205 | k + 1 rounds each ended by the ack timer from k retries make exactly k + 1 DATA attempts, one TX_FAILED and no TX_DONE, with the window doubled k times |
| Traces.UnicastWithoutAck | development/MiXiM/csmaack.cc:52-54 | for the script of a send followed by R + 1 rounds each ended by the ack timer, on a quiet channel: exactly R + 1 DATA attempts, one TX_FAILED, no TX_DONE, window min(base * 2^R, max), ending in WFACK with no packet held |
| Traces.AckAfterExhaustionAborts | development/MiXiM/csmaack.cc:247-252 | in WFACK with nothing held, every ACK addressed to this node fails: the NULL dereference, or the -1 assertion when this node's id is -1 |
| Traces.SendAfterExhaustionIsSilent | development/MiXiM/csmaack.cc:43-55 | in WFACK with nothing held, a new packet is held with the full retry budget and nothing is emitted |
| Traces.StuckSendResumedByFrame | development/MiXiM/csmaack.cc:105-113 | in WFACK holding a packet, an ACK for another node sends the machine back to contention for DATA with the same packet and retry count |
| Traces.RssiAbortLosesAck | development/MiXiM/csmaack.cc:173-180 | a busy RSSI sample while contending to send an ACK puts no frame on the air; with a packet held the machine contends for DATA instead; with none held it idles with SEND_ACK pending, and the next packet offered replaces it with SEND_DATA |
| Traces.AckedSend | development/MiXiM/csmaack.cc:247-267 | an acknowledged unicast round makes one DATA attempt and reports TX_DONE exactly once and TX_FAILED never; window back at base, machine idle |
| Traces.AckGoesToSender | development/MiXiM/csmaack.cc:276-287 | an idle node that receives DATA from s and then wins the contention ends in SEND_ACK, having delivered the frame and put an empty ACK from itself to s on the air |
| Traces.InterruptedRoundKeepsRetries | development/MiXiM/csmaack.cc:105-113 | a round whose wait an ACK for another node cuts short makes one DATA attempt, doubles the window, and contends again for the same packet with the same retry count |
| Traces.InterruptedSendWithoutAck | development/MiXiM/csmaack.cc:105-113 | a unicast send with R retries, one wait cut short by a foreign ACK and the rest unanswered, makes R + 2 DATA attempts before its one TX_FAILED |
| CsmaAck.RxFrameCounted | development/MiXiM/csmaack.cc:102-126 | corrected rxFrame: a frame that ends the wait uses a retry like the ack timeout at lines 196-204 (TX_FAILED and release with none left, otherwise one retry fewer and the window doubled); every other frame is handled as by RxFrame |
| Traces.CountedInterruptRetry | development/MiXiM/csmaack.cc:194-205 | with the corrected rule, an interrupted round with retries left costs one attempt and one retry, like an unanswered round |
| Traces.CountedInterruptLast | development/MiXiM/csmaack.cc:196-200 | with the corrected rule, an interrupted round with no retry left makes one attempt, reports TX_FAILED once and releases the packet |
| Traces.ExhaustCounted | development/MiXiM/csmaack.cc:194-205 | with the corrected rule, any k + 1 rounds from k retries, each ended by the ack timer or by a foreign ACK in any order, make exactly k + 1 DATA attempts, one TX_FAILED and no TX_DONE |
| Traces.UnicastWithoutAckCounted | development/MiXiM/csmaack.cc:52-54 | with the corrected rule, a unicast send with R retries whose waits all end unanswered or by foreign ACKs makes exactly R + 1 DATA attempts, reports TX_FAILED once and never TX_DONE, and leaves the window at min(base * 2^R, max) |
| Traces.OverheardData | development/MiXiM/csmaack.cc:295-301 | DATA overheard for a third node reserves the medium until now + NAV_ACK, arms the NAV timer for NAV_ACK, and the idle node then sleeps |

## Findings

| source | as written | input that shows it | evidently intended | confidence | as-written member | corrected member |
|---|---|---|---|---|---|---|
| development/MiXiM/csmaack.cc:105-113 | a frame that ends the wait for an ACK doubles the window and sends the node back to contention for the same packet, leaving `packet_retries` untouched | `maxPacketRetries` = 0, a unicast send; during the first wait an ACK from node 3 to node 4 arrives; later waits end by the ack timer: two DATA attempts, then TX_FAILED | every DATA attempt after the first is paid from the retry budget, so a packet never acknowledged is tried at most R + 1 times | medium, not executed | Traces.InterruptedSendWithoutAck | CsmaAck.RxFrameCounted, Traces.UnicastWithoutAckCounted |

`Handle` keeps the source's `rxFrame`, so every other row above describes the
code as written. `Run` takes the rule set: `AsWritten`, the default, or
`Counted`, which swaps in `CsmaAck.RxFrameCounted`. The bound is proved for
runs under `Counted`.

## Left out

- Simulation-kernel plumbing (`Define_Module_Like`, `Mac::initialize`, `getLongParameter`) and memory management (destructor, `delete`, `dup`): host framework, not protocol logic. `maxPacketRetries` is the `Config.maxRetries` constant.
- `printf` logging and the `reg_rx_*`/`reg_tx_*` statistics hooks: side-channel accounting with no effect on the protocol state.
- The radio driver and timer service (`setRadioListen/Sleep/Transmit`, `startTransmit`, `setTimeout`, `cancelTimeout`): modelled as emitted `Effect`s. `isReceiving`, `getCurrentTime` and the RSSI sample are `Env` inputs, and `isReceiving` is taken to be constant within one event.
- `intuniform(5, time)` randomness: replaced by `Env.draw`, mapped into [5, time].
- The floating-point `getRssi() > 0.5` comparison: a boolean `rssiBusy` input.
- `rxPacket`/`txPacketDone` upward delivery: recorded only as `RxPacket`/`TxPacketDone` effects.
- Frame payload contents and the 7-byte header layout (`headerLength`, line 323): payloads are opaque bytes.
- `Timeout`: timer identities are a two-value datatype, so the unknown-timer assertion (line 334) cannot arise; likewise the unknown-frame-kind assertion (line 123).
- `Backoff.IncBackoff`: the overflow of `data_contend_time *= 2` in the source's `int` is not modelled; the model doubles unbounded integers.
- `packet_retries` and `ack_to` are not set by `initialize()` (lines 21-35). `retries` starts at 0, which is never read before `txPacket` sets it; `ackTo` starts as `None`.
- `Traces.Run` uses one `Env` for every event of a script, so the trace lemmas cover a quiet channel with a fixed clock and draw. They speak only about the fixed scripts they name. They do not cover arbitrary interleavings of frames, timers and radio events.
- `Traces.ExhaustCounted` covers waits cut short by ACKs for other nodes. Other frames that end the wait (overheard or addressed DATA) reserve the NAV or start an ACK exchange first; the trace lemmas do not follow those paths.
- `csmaack.h` (the constants, state enum, `Header` and the field types) is not part of this model; the constants are `Config` parameters.

=== FILE: backoff.dfy ===
/** The backoff window: doubled after a failed round and capped at the
    maximum (incBackoff), reset to the base window after an ACK (decBackoff). */
module Backoff {
  import opened MacTypes

  function Min(a: int, b: int): int
  {
    if a <= b then a else b
  }

  function Pow2(k: nat): (p: nat)
    ensures p >= 1
  {
    if k == 0 then 1 else 2 * Pow2(k - 1)
  }

  /** One incBackoff step on a window `w` with cap `max`. The result never
      exceeds the cap, and a window inside [0, max] never shrinks. */
  function Doubled(w: int, max: int): (r: int)
    ensures r <= max
    ensures 0 <= w <= max ==> w <= r
    ensures w * 2 <= max ==> r == w * 2
  {
    var d := w * 2;
    if d > max then max else d
  }

  /** incBackoff on the module state: only the window changes, to twice its
      value or the cap, whichever is smaller; it stays under the cap, and a
      window within [base, max] stays within it. */
  function IncBackoff(cfg: Config, m: Mac): (r: Mac)
    ensures r == m.(contendTime := r.contendTime)
    ensures r.contendTime == Min(2 * m.contendTime, cfg.maxDataContend)
    ensures r.contendTime <= cfg.maxDataContend
    ensures 0 <= cfg.dataContend <= m.contendTime <= cfg.maxDataContend ==>
              cfg.dataContend <= r.contendTime <= cfg.maxDataContend
  {
    m.(contendTime := Doubled(m.contendTime, cfg.maxDataContend))
  }

  /** decBackoff: the window goes back to the base constant, whatever it was,
      and nothing else changes. */
  function DecBackoff(cfg: Config, m: Mac): (r: Mac)
    ensures r == m.(contendTime := r.contendTime)
    ensures r.contendTime == cfg.dataContend
  {
    m.(contendTime := cfg.dataContend)
  }

  /** The window after `k` consecutive increments starting from `w`. */
  function IncTimes(w: int, max: int, k: nat): int
  {
    if k == 0 then w else Doubled(IncTimes(w, max, k - 1), max)
  }

  /** Starting from the base window, `k` failed rounds leave the window at
      min(base * 2^k, max). */
  lemma {:induction false} WindowAfterFailures(base: int, max: int, k: nat)
    requires 0 <= base <= max
    ensures IncTimes(base, max, k) == Min(base * Pow2(k), max)
  {
    if k > 0 {
      WindowAfterFailures(base, max, k - 1);
      var q := Pow2(k - 1);
      assert Pow2(k) == 2 * q;
      ScaleByTwo(base, q);
    }
  }

  /** The two arithmetic facts the induction above needs about base * q. */
  lemma ScaleByTwo(base: int, q: nat)
    requires base >= 0 && q >= 1
    ensures base * (2 * q) == 2 * (base * q)
    ensures base * q >= base
  {
  }

  /** Any number of increments from the base keeps the window in [base, max]. */
  lemma {:induction false} WindowStaysInRange(base: int, max: int, k: nat)
    requires 0 <= base <= max
    ensures base <= IncTimes(base, max, k) <= max
  {
    if k > 0 {
      WindowStaysInRange(base, max, k - 1);
    }
  }

  /** After decBackoff the doubling starts over: whatever the window was, k
      further increments give min(base * 2^k, max), as from a fresh start. */
  lemma {:induction false} ResetRestartsDoubling(cfg: Config, m: Mac, k: nat)
    requires 0 <= cfg.dataContend <= cfg.maxDataContend
    ensures IncTimes(DecBackoff(cfg, m).contendTime, cfg.maxDataContend, k)
            == Min(cfg.dataContend * Pow2(k), cfg.maxDataContend)
  {
    WindowAfterFailures(cfg.dataContend, cfg.maxDataContend, k);
  }
}

=== FILE: csmaack.dfy ===
/** The CsmaAck protocol state machine: one pure function per event handler
    and per helper of the module. Each takes the module state and the inputs
    the handler reads from its environment, and returns the new state with
    the effects it requested, or the assertion that stops it. */
module CsmaAck {
  import opened MacTypes
  import opened Backoff
  import Nav

  /** The lower end of the random contention delay. */
  const MinContend := 5

  /** intuniform(5, time), with the draw supplied by the environment. */
  function ContentionDelay(time: int, draw: nat): (d: int)
    requires time >= MinContend
    ensures MinContend <= d <= time
  {
    MinContend + draw % (time - MinContend + 1)
  }

  /** Every delay intuniform(5, time) can return is produced by some draw. */
  lemma ContentionDelayCovers(time: int, d: int)
    requires MinContend <= d <= time
    ensures exists draw: nat :: ContentionDelay(time, draw) == d
  {
    assert ContentionDelay(time, d - MinContend) == d;
  }

  /** The effects of entering contention with window `time`: listen, then arm
      the protocol timer with a delay in [5, time]. */
  ghost predicate ContendEffects(fx: seq<Effect>, time: int)
  {
    && |fx| == 2
    && fx[0] == RadioListen
    && fx[1].SetTimeout? && fx[1].timer == Protocol
    && MinContend <= fx[1].delay <= time
  }

  /** What evalState does with an idle machine `m`: nothing while receiving;
      sleep while the NAV is busy; listen when there is nothing to send;
      otherwise contend to send data, always with the base window. */
  ghost predicate IdleOutcome(cfg: Config, m: Mac, env: Env, r: Step)
  {
    if env.receiving then r == Step(m, [])
    else if m.nav == Busy then r == Step(m, [RadioSleep])
    else if m.tx.None? then r == Step(m, [RadioListen])
    else r.mac == m.(proto := Contend, next := SendingData) && ContendEffects(r.fx, cfg.dataContend)
  }

  /** evalState: the one place where an idle machine decides what to do. */
  function EvalState(cfg: Config, m: Mac, env: Env): (r: Step)
    requires ValidConfig(cfg)
    ensures m.proto == Idle ==> IdleOutcome(cfg, m, env, r)
    ensures m.proto != Idle ==> r == Step(m, [])
    decreases if m.nav == Clear then 3 else 0
  {
    if m.proto == Idle && !env.receiving then
      if m.nav == Clear then
        if m.tx.Some? then
          StartContending(cfg, m.(next := SendingData), cfg.dataContend, env)
        else
          Step(m, [RadioListen])
      else
        Step(m, [RadioSleep])
    else
      Step(m, [])
  }

  /** setIdle: go idle and re-evaluate. */
  function SetIdle(cfg: Config, m: Mac, env: Env): (r: Step)
    requires ValidConfig(cfg)
    ensures IdleOutcome(cfg, m.(proto := Idle), env, r)
    decreases if m.nav == Clear then 4 else 1
  {
    EvalState(cfg, m.(proto := Idle), env)
  }

  /** startContending(time). With the NAV busy the pending action is dropped
      and the machine goes idle (and sleeps unless receiving); otherwise it
      contends, listening, with the protocol timer armed in [5, time]. */
  function StartContending(cfg: Config, m: Mac, time: int, env: Env): (r: Step)
    requires ValidConfig(cfg)
    requires m.next != NoState && time >= MinContend
    ensures m.nav == Busy ==>
              r.mac == m.(proto := Idle, next := NoState)
              && r.fx == (if env.receiving then [] else [RadioSleep])
    ensures m.nav == Clear ==>
              r.mac == m.(proto := Contend) && ContendEffects(r.fx, time)
    decreases 2
  {
    if m.nav == Busy then
      SetIdle(cfg, m.(next := NoState), env)
    else
      Step(m.(proto := Contend), [RadioListen, SetTimeout(Protocol, ContentionDelay(time, env.draw))])
  }

  /** initialize: idle, nothing pending or held, NAV clear, base window, listening. */
  function Initialize(cfg: Config): (r: Step)
    ensures r.mac.proto == Idle && r.mac.next == NoState && r.mac.tx.None?
    ensures r.mac.nav == Clear && r.mac.contendTime == cfg.dataContend
    ensures r.fx == [RadioListen]
  {
    Step(Mac(Idle, NoState, None, 0, cfg.dataContend, Clear, 0, None, 0, 0, 0), [RadioListen])
  }

  /** txPacket. A packet offered while one is held is dropped and counted,
      and nothing else changes; otherwise it becomes the held packet with a
      full retry budget, and an idle machine starts contending for it. */
  function TxPacket(cfg: Config, m: Mac, p: Packet, env: Env): (r: Step)
    requires ValidConfig(cfg) && p.to != cfg.self
    ensures m.tx.Some? ==>
              && r.mac.tx == m.tx && r.mac.proto == m.proto && r.mac.next == m.next
              && r.mac.retries == m.retries && r.mac.txDrops == m.txDrops + 1
              && r.mac == m.(txDrops := r.mac.txDrops) && r.fx == []
    ensures m.tx.None? ==>
              && r.mac.tx == Some(p) && r.mac.retries == cfg.maxRetries
              && r.mac.txDrops == m.txDrops
              && (m.proto == Idle && !env.receiving && m.nav == Clear ==>
                    && r.mac == m.(tx := Some(p), retries := cfg.maxRetries, proto := Contend, next := SendingData)
                    && ContendEffects(r.fx, cfg.dataContend))
              && (m.proto == Idle && !env.receiving && m.nav == Busy ==>
                    r == Step(m.(tx := Some(p), retries := cfg.maxRetries), [RadioSleep]))
              && (m.proto != Idle || env.receiving ==>
                    r == Step(m.(tx := Some(p), retries := cfg.maxRetries), []))
  {
    if m.tx.Some? then
      Step(m.(txDrops := m.txDrops + 1), [])
    else
      var s := EvalState(cfg, m.(tx := Some(p)), env);
      Step(s.mac.(retries := cfg.maxRetries), s.fx)
  }

  /** sendAck: acknowledge the DATA frame whose sender was remembered in
      `ackTo`. It needs a known, non-negative target; the one frame it puts on
      the air is an empty ACK from this node to that target, and apart from
      the state nothing of the module changes. */
  function SendAck(cfg: Config, m: Mac): (r: Outcome)
    ensures r.Ok? <==> m.ackTo.Some? && m.ackTo.value >= 0
    ensures r.Ok? ==>
              && r.step.mac == m.(proto := SendingAck)
              && |r.step.fx| == 2 && r.step.fx[0] == RadioTransmit
              && r.step.fx[1].StartTransmit?
              && r.step.fx[1].frame.kind == Ack
              && r.step.fx[1].frame.from == cfg.self
              && Some(r.step.fx[1].frame.to) == m.ackTo
              && r.step.fx[1].frame.payload == []
  {
    if m.ackTo.None? || m.ackTo.value < 0 then
      Fail(BadAckTarget)
    else
      Ok(Step(m.(proto := SendingAck),
              [RadioTransmit, StartTransmit(Frame(Ack, cfg.self, m.ackTo.value, []))]))
  }

  /** sendData: a copy of the held packet as a DATA frame from this node. A
      broadcast will need no ACK (pending state IDLE); a unicast waits for one
      (pending state WFACK). */
  function SendData(cfg: Config, m: Mac): (r: Outcome)
    ensures r.Ok? <==> m.tx.Some? && m.tx.value.to != cfg.self
    ensures r.Ok? ==>
              && r.step.mac.proto == SendingData
              && r.step.mac.next == (if m.tx.value.to == cfg.broadcast then Idle else WaitingAck)
              && r.step.mac == m.(proto := SendingData, next := r.step.mac.next)
              && r.step.fx == [RadioTransmit,
                               StartTransmit(Frame(Data, cfg.self, m.tx.value.to, m.tx.value.payload))]
  {
    if m.tx.None? then
      Fail(NoTransmission)
    else if m.tx.value.to == cfg.self then
      Fail(SendToSelf)
    else
      var p := m.tx.value;
      var next := if p.to == cfg.broadcast then Idle else WaitingAck;
      Ok(Step(m.(proto := SendingData, next := next),
              [RadioTransmit, StartTransmit(Frame(Data, cfg.self, p.to, p.payload))]))
  }

  /** The ACK that completes the held transmission: addressed to this node,
      from the held packet's destination, while waiting for it. */
  predicate ExpectedAck(cfg: Config, m: Mac, f: Frame)
  {
    f.to == cfg.self && m.proto == WaitingAck && m.tx.Some? && f.from == m.tx.value.to
  }

  /** receiveAck. The expected ACK cancels the ack timer, resets the backoff
      window, reports the packet done, releases it and goes idle. Every other
      ACK changes nothing. An ACK to this node while waiting with no held
      packet dereferences NULL in the source. */
  function ReceiveAck(cfg: Config, m: Mac, f: Frame, env: Env): (r: Outcome)
    requires ValidConfig(cfg)
    ensures r.Fail? <==> f.to == -1 || (f.to == cfg.self && m.proto == WaitingAck && m.tx.None?)
    ensures r.Ok? && ExpectedAck(cfg, m, f) ==>
              && r.step.mac.tx.None?
              && r.step.mac.proto == Idle
              && r.step.mac.contendTime == cfg.dataContend
              && r.step.mac.txCount == m.txCount + 1
              && r.step.mac.retries == m.retries && r.step.mac.txDrops == m.txDrops
              && |r.step.fx| >= 2
              && r.step.fx[0] == CancelTimeout(Protocol)
              && r.step.fx[1] == TxPacketDone(m.tx.value, TxDone)
    ensures r.Ok? && ExpectedAck(cfg, m, f) ==>
              && r.step.mac == m.(contendTime := cfg.dataContend, txCount := m.txCount + 1, tx := None, proto := Idle)
              && r.step.fx == [CancelTimeout(Protocol), TxPacketDone(m.tx.value, TxDone)]
                              + (if env.receiving then [] else if m.nav == Busy then [RadioSleep] else [RadioListen])
    ensures r.Ok? && !ExpectedAck(cfg, m, f) ==> r.step == Step(m, [])
  {
    if f.to == -1 then
      Fail(AckToMinusOne)
    else if f.to != cfg.self || m.proto != WaitingAck then
      Ok(Step(m, []))
    else if m.tx.None? then
      Fail(NoTransmission)
    else if f.from != m.tx.value.to then
      Ok(Step(m, []))
    else
      var done := DecBackoff(cfg, m).(txCount := m.txCount + 1, tx := None);
      Ok(Prepend([CancelTimeout(Protocol), TxPacketDone(m.tx.value, TxDone)], SetIdle(cfg, done, env)))
  }

  /** receiveData. A unicast to this node is delivered, its sender becomes the
      ACK target and the machine contends to send the ACK with the ACK window.
      A broadcast is delivered and forces state and pending state to IDLE. A
      frame for another node forces both to IDLE and reserves the medium for
      NAV_ACK. */
  function ReceiveData(cfg: Config, m: Mac, f: Frame, env: Env): (r: Step)
    requires ValidConfig(cfg)
    ensures f.to == cfg.self ==>
              && r.mac.ackTo == Some(f.from) && r.mac.rxCount == m.rxCount + 1
              && |r.fx| >= 1 && r.fx[0] == RxPacket(f)
              && r.mac.tx == m.tx && r.mac.retries == m.retries && r.mac.contendTime == m.contendTime
              && (m.nav == Clear ==> r.mac.proto == Contend && r.mac.next == SendingAck
                                     && ContendEffects(r.fx[1..], cfg.ackContend))
              && (m.nav == Busy ==> r.mac.proto == Idle && r.mac.next == NoState)
    ensures f.to == cfg.self && m.nav == Busy ==>
              r == Step(m.(ackTo := Some(f.from), rxCount := m.rxCount + 1, proto := Idle, next := NoState),
                        [RxPacket(f)] + (if env.receiving then [] else [RadioSleep]))
    ensures f.to == cfg.self && m.nav == Clear ==>
              r.mac == m.(ackTo := Some(f.from), rxCount := m.rxCount + 1, proto := Contend, next := SendingAck)
    ensures f.to != cfg.self && f.to == cfg.broadcast ==>
              r == Step(m.(proto := Idle, next := Idle, rxCount := m.rxCount + 1), [RxPacket(f)])
    ensures f.to != cfg.self && f.to != cfg.broadcast ==>
              && r.mac.proto == Idle && r.mac.next == Idle && r.mac.rxCount == m.rxCount
              && r.mac.nav == Busy && Nav.Remaining(r.mac, env.now) >= cfg.navAck
    ensures f.to != cfg.self && f.to != cfg.broadcast ==>
              && RxPacket(f) !in r.fx
              && r.mac == m.(proto := Idle, next := Idle, nav := Busy, navEnd := r.mac.navEnd)
  {
    if f.to == cfg.self then
      var heard := m.(ackTo := Some(f.from), rxCount := m.rxCount + 1, next := SendingAck);
      Prepend([RxPacket(f)], StartContending(cfg, heard, cfg.ackContend, env))
    else if f.to == cfg.broadcast then
      Step(m.(proto := Idle, next := Idle, rxCount := m.rxCount + 1), [RxPacket(f)])
    else
      Nav.UpdateNav(m.(proto := Idle, next := Idle), cfg.navAck, env.now)
  }

  /** Whether a frame arriving while waiting for an ACK ends the wait: it is
      not an ACK, or not addressed to this node. */
  predicate EndsWait(cfg: Config, m: Mac, f: Frame)
  {
    m.proto == WaitingAck && (f.kind != Ack || f.to != cfg.self)
  }

  /** The second half of rxFrame: hand the frame to its kind's handler, with
      `fx0` already emitted, then re-evaluate. */
  function Deliver(cfg: Config, m: Mac, f: Frame, fx0: seq<Effect>, env: Env): (r: Outcome)
    requires ValidConfig(cfg)
    ensures m.proto == WaitingAck && f.kind == Ack && f.to == cfg.self != -1 && m.tx.Some? && f.from != m.tx.value.to ==>
              r == Ok(Step(m, fx0))
  {
    var handled := match f.kind
      case Ack => ReceiveAck(cfg, m, f, env)
      case Data => Ok(ReceiveData(cfg, m, f, env));
    match handled
    case Fail(why) => Fail(why)
    case Ok(s) =>
      var e := EvalState(cfg, s.mac, env);
      assert s.mac.proto == WaitingAck && s.fx == [] ==> fx0 + s.fx + e.fx == fx0;
      Ok(Prepend(fx0 + s.fx, e))
  }

  /** rxFrame: a frame that ends the wait for an ACK counts as a failed round
      (window doubled, ack timer cancelled, idle) but uses no retry; then the
      frame is handled by kind and the machine re-evaluated. */
  function RxFrame(cfg: Config, m: Mac, f: Frame, env: Env): (r: Outcome)
    requires ValidConfig(cfg)
    ensures EndsWait(cfg, m, f) && !(f.kind == Ack && f.to == -1) ==>
              && r.Ok? && |r.step.fx| >= 1 && r.step.fx[0] == CancelTimeout(Protocol)
              && r.step.mac.contendTime == Doubled(m.contendTime, cfg.maxDataContend)
              && r.step.mac.retries == m.retries && r.step.mac.tx == m.tx
    ensures m.proto == WaitingAck && f.kind == Ack && f.to == cfg.self != -1 && m.tx.Some? && f.from != m.tx.value.to ==>
              r == Ok(Step(m, []))
    ensures f.kind == Ack && r.Ok? && ExpectedAck(cfg, m, f) ==>
              r.step.mac.tx.None? && r.step.mac.proto == Idle
              && r.step.mac.contendTime == cfg.dataContend
              && TxPacketDone(m.tx.value, TxDone) in r.step.fx
    ensures f.kind == Data ==>
              && r.Ok?
              && (RxPacket(f) in r.step.fx <==> f.to == cfg.self || f.to == cfg.broadcast)
              && r.step.mac.tx == m.tx && r.step.mac.retries == m.retries
    ensures m.proto == Idle && m.nav == Clear && !env.receiving && f.kind == Data && f.to == cfg.self ==>
              && r.Ok? && r.step.mac.proto == Contend && r.step.mac.next == SendingAck
              && r.step.mac.ackTo == Some(f.from)
    ensures f.kind == Ack && f.to == -1 ==> r == Fail(AckToMinusOne)
    ensures f.kind == Ack && m.proto != WaitingAck ==>
              r == (if f.to == -1 then Fail(AckToMinusOne) else Ok(EvalState(cfg, m, env)))
  {
    var ends := EndsWait(cfg, m, f);
    var m0 := if ends then IncBackoff(cfg, m).(proto := Idle) else m;
    var fx0 := if ends then [CancelTimeout(Protocol)] else [];
    Deliver(cfg, m0, f, fx0, env)
  }

  /** rxFrame as the bounded retry budget would have it: a frame that ends the
      wait for an ACK is paid for like the ack timeout at lines 196-204 -- with
      no retry left the packet is reported failed and released, otherwise a
      retry is used up and the window doubles -- and then the frame is handled
      as before. Every other frame is handled exactly as by RxFrame. */
  function RxFrameCounted(cfg: Config, m: Mac, f: Frame, env: Env): (r: Outcome)
    requires ValidConfig(cfg)
    ensures !EndsWait(cfg, m, f) || m.tx.None? ==> r == RxFrame(cfg, m, f, env)
    ensures EndsWait(cfg, m, f) && m.tx.Some? && !(f.kind == Ack && f.to == -1) ==>
              && r.Ok? && |r.step.fx| >= 1 && r.step.fx[0] == CancelTimeout(Protocol)
              && r.step.mac.retries == m.retries - 1
              && (m.retries == 0 ==>
                    && r.step.mac.tx.None? && r.step.mac.txDrops == m.txDrops + 1
                    && r.step.mac.contendTime == m.contendTime
                    && |r.step.fx| >= 2 && r.step.fx[1] == TxPacketDone(m.tx.value, TxFailed))
              && (m.retries != 0 ==>
                    && r.step.mac.tx == m.tx && r.step.mac.txDrops == m.txDrops
                    && r.step.mac.contendTime == Doubled(m.contendTime, cfg.maxDataContend))
  {
    if !EndsWait(cfg, m, f) || m.tx.None? then
      RxFrame(cfg, m, f, env)
    else if m.retries == 0 then
      var failed := m.(proto := Idle, retries := -1, txDrops := m.txDrops + 1, tx := None);
      Deliver(cfg, failed, f, [CancelTimeout(Protocol), TxPacketDone(m.tx.value, TxFailed)], env)
    else
      var retry := IncBackoff(cfg, m).(proto := Idle, retries := m.retries - 1);
      Deliver(cfg, retry, f, [CancelTimeout(Protocol)], env)
  }

  /** transmitDone. After an ACK the machine goes idle. After DATA it enters
      the pending state: WFACK arms the ack timer; a broadcast is reported
      done and released. The radio then listens. */
  function TransmitDone(cfg: Config, m: Mac, env: Env): (r: Outcome)
    requires ValidConfig(cfg)
    ensures r.Fail? <==> !(m.proto == SendingAck || (m.proto == SendingData && m.tx.Some?))
    ensures r.Ok? && m.proto == SendingAck ==> IdleOutcome(cfg, m.(proto := Idle), env, r.step)
    ensures r.Ok? && m.proto == SendingData ==>
              && r.step.mac.proto == m.next
              && (SetTimeout(Protocol, cfg.timeoutWaitAck) in r.step.fx <==> m.next == WaitingAck)
              && (m.tx.value.to == cfg.broadcast ==>
                    && r.step.mac.tx.None? && r.step.mac.txCount == m.txCount + 1
                    && TxPacketDone(m.tx.value, TxDone) in r.step.fx
                    && r.step.mac == m.(proto := m.next, txCount := m.txCount + 1, tx := None)
                    && r.step.fx == (if m.next == WaitingAck then [SetTimeout(Protocol, cfg.timeoutWaitAck)] else [])
                                    + [TxPacketDone(m.tx.value, TxDone), RadioListen])
              && (m.tx.value.to != cfg.broadcast ==>
                    && r.step.mac == m.(proto := m.next)
                    && r.step.fx == (if m.next == WaitingAck then [SetTimeout(Protocol, cfg.timeoutWaitAck)] else [])
                                    + [RadioListen])
              && |r.step.fx| >= 1 && r.step.fx[|r.step.fx| - 1] == RadioListen
  {
    match m.proto
    case SendingAck => Ok(SetIdle(cfg, m, env))
    case SendingData =>
      var armed := if m.next == WaitingAck then [SetTimeout(Protocol, cfg.timeoutWaitAck)] else [];
      if m.tx.None? then
        Fail(NoTransmission)
      else if m.tx.value.to == cfg.broadcast then
        Ok(Step(m.(proto := m.next, txCount := m.txCount + 1, tx := None),
                armed + [TxPacketDone(m.tx.value, TxDone), RadioListen]))
      else
        Ok(Step(m.(proto := m.next), armed + [RadioListen]))
    case _ => Fail(UnexpectedTransmitDone)
  }

  /** rxFailed: just re-evaluate. */
  function RxFailed(cfg: Config, m: Mac, env: Env): (r: Step)
    requires ValidConfig(cfg)
    ensures m.proto != Idle ==> r == Step(m, [])
    ensures m.proto == Idle ==> IdleOutcome(cfg, m, env, r)
  {
    EvalState(cfg, m, env)
  }

  /** rxStarted: a reception that starts while contending cancels the
      contention; in every other state nothing changes. */
  function RxStarted(m: Mac): (r: Step)
    ensures m.proto == Contend ==>
              r == Step(m.(proto := Idle, next := NoState), [CancelTimeout(Protocol)])
    ensures m.proto != Contend ==> r == Step(m, [])
  {
    if m.proto == Contend then
      Step(m.(proto := Idle, next := NoState), [CancelTimeout(Protocol)])
    else
      Step(m, [])
  }

  /** protocolTimeout while waiting for an ACK. With no retries left the
      packet is reported failed, counted as dropped and released, and the
      state stays WFACK; otherwise one retry is used up, the window doubles
      and the machine goes idle to contend again. The retry count is
      decremented in both cases (post-decrement). */
  function AckTimeout(cfg: Config, m: Mac, env: Env): (r: Outcome)
    requires ValidConfig(cfg) && m.proto == WaitingAck
    ensures r.Fail? <==> m.tx.None?
    ensures r.Ok? ==> r.step.mac.retries == m.retries - 1
    ensures r.Ok? && m.retries == 0 ==>
              && r.step.mac.tx.None? && r.step.mac.proto == WaitingAck
              && r.step.mac.txDrops == m.txDrops + 1
              && r.step.fx == [TxPacketDone(m.tx.value, TxFailed)]
    ensures m.tx.Some? && m.retries == 0 ==>
              r == Ok(Step(m.(retries := -1, txDrops := m.txDrops + 1, tx := None),
                           [TxPacketDone(m.tx.value, TxFailed)]))
    ensures r.Ok? && m.retries != 0 ==>
              IdleOutcome(cfg, IncBackoff(cfg, m.(retries := m.retries - 1)).(proto := Idle), env, r.step)
    ensures r.Ok? && m.retries != 0 ==>
              && r.step.mac.tx == m.tx && r.step.mac.txDrops == m.txDrops
              && r.step.mac.contendTime == Doubled(m.contendTime, cfg.maxDataContend)
              && (!env.receiving && m.nav == Clear ==>
                    && r.step.mac == m.(proto := Contend, next := SendingData, retries := m.retries - 1,
                                        contendTime := r.step.mac.contendTime)
                    && ContendEffects(r.step.fx, cfg.dataContend))
  {
    if m.tx.None? then
      Fail(NoTransmission)
    else if m.retries == 0 then
      Ok(Step(m.(retries := m.retries - 1, txDrops := m.txDrops + 1, tx := None),
              [TxPacketDone(m.tx.value, TxFailed)]))
    else
      Ok(SetIdle(cfg, IncBackoff(cfg, m.(retries := m.retries - 1)), env))
  }

  /** protocolTimeout while contending. After the source's checks, a busy
      RSSI sample sends the machine idle (the pending action is left in
      place); otherwise the pending action is consumed and performed. */
  function ContendTimeout(cfg: Config, m: Mac, env: Env): (r: Outcome)
    requires ValidConfig(cfg) && m.proto == Contend
    ensures m.next == NoState ==> r == Fail(NothingPending)
    ensures m.next != NoState && env.receiving ==> r == Fail(ReceivingAtTimeout)
    ensures m.next != NoState && !env.receiving && m.nav == Busy ==> r == Fail(NavBusyAtTimeout)
    ensures m.next != NoState && !env.receiving && m.nav == Clear && env.rssiBusy ==>
              && r.Ok? && |r.step.fx| >= 1 && r.step.fx[0] == RadioListen
              && IdleOutcome(cfg, m.(proto := Idle), env, Step(r.step.mac, r.step.fx[1..]))
    ensures m.next == SendingAck && !env.receiving && m.nav == Clear && !env.rssiBusy ==>
              && (r.Ok? <==> m.ackTo.Some? && m.ackTo.value >= 0)
              && (r.Ok? ==>
                    && r.step.mac == m.(proto := SendingAck, next := NoState)
                    && r.step.fx == [RadioListen, RadioTransmit,
                                     StartTransmit(Frame(Ack, cfg.self, m.ackTo.value, []))])
    ensures m.next == SendingData && !env.receiving && m.nav == Clear && !env.rssiBusy ==>
              && (r.Ok? <==> m.tx.Some? && m.tx.value.to != cfg.self)
              && (r.Ok? ==>
                    && r.step.mac.proto == SendingData
                    && r.step.mac.next == (if m.tx.value.to == cfg.broadcast then Idle else WaitingAck)
                    && r.step.mac == m.(proto := SendingData, next := r.step.mac.next)
                    && r.step.fx == [RadioListen, RadioTransmit,
                                     StartTransmit(Frame(Data, cfg.self, m.tx.value.to, m.tx.value.payload))])
    ensures m.next !in {NoState, SendingAck, SendingData} && !env.receiving && m.nav == Clear && !env.rssiBusy ==>
              r == Fail(InvalidNextState)
  {
    if m.next == NoState then
      Fail(NothingPending)
    else if env.receiving then
      Fail(ReceivingAtTimeout)
    else if m.nav == Busy then
      Fail(NavBusyAtTimeout)
    else if env.rssiBusy then
      Ok(Prepend([RadioListen], SetIdle(cfg, m, env)))
    else
      var consumed := m.(next := NoState);
      var sent := match m.next
        case SendingAck => SendAck(cfg, consumed)
        case SendingData => SendData(cfg, consumed)
        case _ => Fail(InvalidNextState);
      match sent
      case Fail(why) => Fail(why)
      case Ok(s) => Ok(Prepend([RadioListen], s))
  }

  /** protocolTimeout: dispatch on the state; only CONTEND and WFACK expect it. */
  function ProtocolTimeout(cfg: Config, m: Mac, env: Env): (r: Outcome)
    requires ValidConfig(cfg)
    ensures m.proto != Contend && m.proto != WaitingAck ==> r == Fail(UnexpectedTimeout)
  {
    match m.proto
    case Contend => ContendTimeout(cfg, m, env)
    case WaitingAck => AckTimeout(cfg, m, env)
    case _ => Fail(UnexpectedTimeout)
  }

  /** navTimeout: the medium is clear again; re-evaluate. */
  function NavTimeout(cfg: Config, m: Mac, env: Env): (r: Step)
    requires ValidConfig(cfg)
    ensures r.mac.nav == Clear
    ensures m.proto == Idle && !env.receiving && m.tx.Some? ==>
              r.mac == m.(nav := Clear, proto := Contend, next := SendingData)
              && ContendEffects(r.fx, cfg.dataContend)
    ensures m.proto == Idle && !env.receiving && m.tx.None? ==> r == Step(m.(nav := Clear), [RadioListen])
    ensures m.proto != Idle || env.receiving ==> r == Step(m.(nav := Clear), [])
  {
    EvalState(cfg, m.(nav := Clear), env)
  }

  /** timeout(which): route to the protocol or the NAV handler. */
  function Timeout(cfg: Config, m: Mac, which: Timer, env: Env): (r: Outcome)
    requires ValidConfig(cfg)
    ensures which == NavTimer ==> r.Ok? && r.step.mac.nav == Clear
    ensures which == Protocol && m.proto != Contend && m.proto != WaitingAck ==> r == Fail(UnexpectedTimeout)
    ensures which == Protocol && m.proto == WaitingAck ==> (r.Ok? <==> m.tx.Some?)
  {
    match which
    case Protocol => ProtocolTimeout(cfg, m, env)
    case NavTimer => Ok(NavTimeout(cfg, m, env))
  }

  /** The events the module handles. */
  datatype Event =
    | Send(packet: Packet)
    | FrameArrived(frame: Frame)
    | RxStart
    | RxFail
    | TxDoneEvent
    | TimerFired(timer: Timer)

  /** The handler for one event. txPacket asserts that the packet is not
      addressed to this node. */
  function Handle(cfg: Config, m: Mac, e: Event, env: Env): (r: Outcome)
    requires ValidConfig(cfg)
    ensures e.Send? ==> (r.Ok? <==> e.packet.to != cfg.self)
    ensures e.RxStart? ==> r.Ok? && (m.proto != Contend ==> r.step == Step(m, []))
  {
    match e
    case Send(p) => if p.to == cfg.self then Fail(SendToSelf) else Ok(TxPacket(cfg, m, p, env))
    case FrameArrived(f) => RxFrame(cfg, m, f, env)
    case RxStart => Ok(RxStarted(m))
    case RxFail => Ok(RxFailed(cfg, m, env))
    case TxDoneEvent => TransmitDone(cfg, m, env)
    case TimerFired(which) => Timeout(cfg, m, which, env)
  }

  /** Which frame-reception rule the machine follows: the source's rxFrame,
      or RxFrameCounted, which charges a retry for a frame that ends the wait
      for an ACK. */
  datatype Rules = AsWritten | Counted

  /** The handler for one event under `rules`; only frame reception differs. */
  function HandleBy(rules: Rules, cfg: Config, m: Mac, e: Event, env: Env): (r: Outcome)
    requires ValidConfig(cfg)
    ensures rules == AsWritten || !e.FrameArrived? ==> r == Handle(cfg, m, e, env)
  {
    if rules == Counted && e.FrameArrived? then RxFrameCounted(cfg, m, e.frame, env)
    else Handle(cfg, m, e, env)
  }
}

=== FILE: invariant.dfy ===
/** A state invariant of the CsmaAck machine that every handler preserves,
    and what it rules out: under it, the contention and transmission
    handlers never reach the source's internal-consistency assertions. */
module Invariant {
  import opened MacTypes
  import opened CsmaAck
  import opened Backoff

  /** What holds in every state reachable from initialize:
      - the state is a real state, never PROTO_STATE_NONE;
      - a held packet is never addressed to this node;
      - while contending, the NAV is clear and the pending action is a send,
        with a packet held for DATA and a target remembered for an ACK;
      - while sending DATA, a packet is held and the pending state is IDLE
        for a broadcast and WFACK for a unicast.
      Note what is NOT here: WFACK does not imply a held packet. */
  ghost predicate Inv(cfg: Config, m: Mac)
  {
    && m.proto != NoState
    && (m.tx.Some? ==> m.tx.value.to != cfg.self)
    && (m.proto == Contend ==>
          && m.nav == Clear
          && (m.next == SendingAck || m.next == SendingData)
          && (m.next == SendingData ==> m.tx.Some?)
          && (m.next == SendingAck ==> m.ackTo.Some?))
    && (m.proto == SendingData ==>
          && m.tx.Some?
          && m.next == (if m.tx.value.to == cfg.broadcast then Idle else WaitingAck))
  }

  lemma InitEstablishes(cfg: Config)
    ensures Inv(cfg, Initialize(cfg).mac)
  {
  }

  lemma EvalStatePreserves(cfg: Config, m: Mac, env: Env)
    requires ValidConfig(cfg) && Inv(cfg, m)
    ensures Inv(cfg, EvalState(cfg, m, env).mac)
  {
  }

  lemma RxFramePreserves(cfg: Config, m: Mac, f: Frame, env: Env)
    requires ValidConfig(cfg) && Inv(cfg, m)
    ensures RxFrame(cfg, m, f, env).Ok? ==> Inv(cfg, RxFrame(cfg, m, f, env).step.mac)
  {
    var ends := EndsWait(cfg, m, f);
    var m0 := if ends then IncBackoff(cfg, m).(proto := Idle) else m;
    assert Inv(cfg, m0);
    match f.kind
    case Ack =>
      var a := ReceiveAck(cfg, m0, f, env);
      if a.Ok? {
        assert Inv(cfg, a.step.mac);
        EvalStatePreserves(cfg, a.step.mac, env);
      }
    case Data =>
      var d := ReceiveData(cfg, m0, f, env);
      assert Inv(cfg, d.mac);
      EvalStatePreserves(cfg, d.mac, env);
  }

  lemma ProtocolTimeoutPreserves(cfg: Config, m: Mac, env: Env)
    requires ValidConfig(cfg) && Inv(cfg, m)
    ensures ProtocolTimeout(cfg, m, env).Ok? ==> Inv(cfg, ProtocolTimeout(cfg, m, env).step.mac)
  {
  }

  /** Every handler, on every input, keeps the invariant. */
  lemma HandlePreserves(cfg: Config, m: Mac, e: Event, env: Env)
    requires ValidConfig(cfg) && Inv(cfg, m)
    ensures Handle(cfg, m, e, env).Ok? ==> Inv(cfg, Handle(cfg, m, e, env).step.mac)
  {
    match e
    case Send(p) =>
    case FrameArrived(f) => RxFramePreserves(cfg, m, f, env);
    case RxStart =>
    case RxFail =>
    case TxDoneEvent =>
    case TimerFired(which) => ProtocolTimeoutPreserves(cfg, m, env);
  }

  /** Under the invariant, a contention timeout with the radio idle never
      fails on the source's assertions: the only way it can stop is an ACK
      target that is a negative node id. */
  lemma ContendTimeoutSafe(cfg: Config, m: Mac, env: Env)
    requires ValidConfig(cfg) && Inv(cfg, m) && m.proto == Contend && !env.receiving
    ensures ContendTimeout(cfg, m, env).Ok? || (m.next == SendingAck && m.ackTo.value < 0)
  {
  }

  /** Under the invariant, transmitDone while sending DATA never fails; for a
      unicast it enters WFACK and arms the ack timer, for a broadcast it goes
      idle, arms nothing, reports the packet done and releases it. */
  lemma DataTransmitDone(cfg: Config, m: Mac, env: Env)
    requires ValidConfig(cfg) && Inv(cfg, m) && m.proto == SendingData
    ensures var r := TransmitDone(cfg, m, env);
            && r.Ok?
            && (m.tx.value.to != cfg.broadcast ==>
                  && r.step.mac.proto == WaitingAck
                  && r.step.mac.tx == m.tx
                  && r.step.fx == [SetTimeout(Protocol, cfg.timeoutWaitAck), RadioListen])
            && (m.tx.value.to == cfg.broadcast ==>
                  && r.step.mac.proto == Idle
                  && r.step.mac.tx.None?
                  && r.step.fx == [TxPacketDone(m.tx.value, TxDone), RadioListen])
  {
  }
}

=== FILE: nav.dfy ===
/** Virtual carrier sense: a single "medium busy until navEnd" deadline kept
    on the 16-bit clock of the node, so every difference wraps modulo 2^16. */
module Nav {
  import opened MacTypes

  /** nav_end_time - now, computed in unsigned 16-bit arithmetic. */
  function Remaining(m: Mac, now: ushort): ushort
  {
    Sub16(m.navEnd, now)
  }

  /** Whether updateNav(t) at time `now` takes effect. */
  predicate Extends(m: Mac, t: ushort, now: ushort)
  {
    m.nav == Clear || t > Remaining(m, now)
  }

  /** updateNav(t). It acts exactly when the NAV is clear or `t` exceeds the
      time left; then the NAV is busy until now + t (mod 2^16) and the NAV
      timer is armed for exactly t. Otherwise nothing changes. Either way the
      reservation afterwards is at least t and never shorter than before. */
  function UpdateNav(m: Mac, t: ushort, now: ushort): (r: Step)
    requires t > 0
    ensures Extends(m, t, now) ==>
              r.mac == m.(nav := Busy, navEnd := Add16(now, t)) && r.fx == [SetTimeout(NavTimer, t as int)]
    ensures !Extends(m, t, now) ==> r == Step(m, [])
    ensures r.mac.nav == Busy && Remaining(r.mac, now) >= t
    ensures m.nav == Busy ==> Remaining(r.mac, now) >= Remaining(m, now)
  {
    var left := Sub16(m.navEnd, now);
    if m.nav == Clear || t > left then
      Step(m.(nav := Busy, navEnd := Add16(t, now)), [SetTimeout(NavTimer, t as int)])
    else
      Step(m, [])
  }

  function Max16(a: ushort, b: ushort): ushort
  {
    if a >= b then a else b
  }

  /** Two reservations `a` at time `n` and `b` at time `n + delta`, starting
      from a clear NAV with delta <= a: the time left after the second is
      max(a - delta, b), and the deadline is the later of n + a and
      n + delta + b (all modulo 2^16). */
  lemma TwoReservations(m: Mac, a: ushort, b: ushort, n: ushort, delta: ushort)
    requires m.nav == Clear && a > 0 && b > 0 && delta <= a
    ensures var m1 := UpdateNav(m, a, n).mac;
            var m2 := UpdateNav(m1, b, Add16(n, delta)).mac;
            && m2.nav == Busy
            && Remaining(m2, Add16(n, delta)) == Max16(a - delta, b)
            && m2.navEnd == (if b > a - delta then Add16(Add16(n, delta), b) else Add16(n, a))
  {
    var m1 := UpdateNav(m, a, n).mac;
    assert Remaining(m1, Add16(n, delta)) == a - delta;
  }
}

=== FILE: traces.dfy ===
/** Runs of the CsmaAck machine over sequences of events, and what a whole
    stop-and-wait exchange does: the number of DATA attempts, the reports to
    the layer above, and the backoff window along the way. */
module Traces {
  import opened MacTypes
  import opened Backoff
  import opened CsmaAck
  import Invariant

  /** Continue after the step `s` with the outcome `o` of the later events. */
  function Then(s: Step, o: Outcome): Outcome
  {
    match o
    case Fail(why) => Fail(why)
    case Ok(t) => Ok(Prepend(s.fx, t))
  }

  /** Handle the events in order under `rules`, with the same environment
      inputs for each, collecting the effects; stop at the first failed
      assertion. */
  function Run(cfg: Config, m: Mac, evs: seq<Event>, env: Env, rules: Rules := AsWritten): Outcome
    requires ValidConfig(cfg)
    decreases |evs|
  {
    if |evs| == 0 then
      Ok(Step(m, []))
    else
      match HandleBy(rules, cfg, m, evs[0], env)
      case Fail(why) => Fail(why)
      case Ok(s) => Then(s, Run(cfg, s.mac, evs[1..], env, rules))
  }

  /** Running `a + b` is running `a` and then, from where it stopped, `b`. */
  lemma {:induction false} RunAppend(cfg: Config, m: Mac, a: seq<Event>, b: seq<Event>, env: Env, rules: Rules := AsWritten)
    requires ValidConfig(cfg)
    requires Run(cfg, m, a, env, rules).Ok?
    ensures var s := Run(cfg, m, a, env, rules).step;
            Run(cfg, m, a + b, env, rules) == Then(s, Run(cfg, s.mac, b, env, rules))
    decreases |a|
  {
    if |a| == 0 {
      assert a + b == b;
    } else {
      var o := HandleBy(rules, cfg, m, a[0], env);
      assert (a + b)[0] == a[0];
      assert (a + b)[1..] == a[1..] + b;
      assert o.Ok?;
      var h := o.step;
      assert Run(cfg, m, a, env, rules) == Then(h, Run(cfg, h.mac, a[1..], env, rules));
      assert Run(cfg, m, a + b, env, rules) == Then(h, Run(cfg, h.mac, a[1..] + b, env, rules));
      RunAppend(cfg, h.mac, a[1..], b, env, rules);
      var t := Run(cfg, h.mac, a[1..], env, rules).step;
      ThenAssoc(h, t, Run(cfg, t.mac, b, env, rules));
    }
  }

  /** Two runs that both complete compose into one. */
  lemma RunConcat(cfg: Config, m: Mac, a: seq<Event>, b: seq<Event>, env: Env, rules: Rules := AsWritten)
    requires ValidConfig(cfg)
    requires Run(cfg, m, a, env, rules).Ok?
    requires Run(cfg, Run(cfg, m, a, env, rules).step.mac, b, env, rules).Ok?
    ensures var s := Run(cfg, m, a, env, rules).step;
            var t := Run(cfg, s.mac, b, env, rules).step;
            Run(cfg, m, a + b, env, rules) == Ok(Step(t.mac, s.fx + t.fx))
  {
    RunAppend(cfg, m, a, b, env, rules);
  }

  lemma ThenAssoc(h: Step, s: Step, o: Outcome)
    ensures Then(h, Then(s, o)) == Then(Step(s.mac, h.fx + s.fx), o)
  {
    if o.Ok? {
      assert h.fx + (s.fx + o.step.fx) == (h.fx + s.fx) + o.step.fx;
    }
  }

  /** 1 if `p` holds of `e`, else 0. */
  function Hit(p: Effect -> bool, e: Effect): nat
  {
    if p(e) then 1 else 0
  }

  /** How many effects in `fx` satisfy `p`. */
  function Count(fx: seq<Effect>, p: Effect -> bool): nat
  {
    if |fx| == 0 then 0 else Hit(p, fx[0]) + Count(fx[1..], p)
  }

  lemma {:induction false} CountAppend(a: seq<Effect>, b: seq<Effect>, p: Effect -> bool)
    ensures Count(a + b, p) == Count(a, p) + Count(b, p)
    decreases |a|
  {
    if |a| == 0 {
      assert a + b == b;
    } else {
      assert (a + b)[0] == a[0];
      assert (a + b)[1..] == a[1..] + b;
      CountAppend(a[1..], b, p);
    }
  }

  lemma Count1(e: Effect, p: Effect -> bool)
    ensures Count([e], p) == Hit(p, e)
  {
    assert [e][1..] == [];
  }

  lemma Count2(e0: Effect, e1: Effect, p: Effect -> bool)
    ensures Count([e0, e1], p) == Hit(p, e0) + Hit(p, e1)
  {
    assert [e0, e1][1..] == [e1];
    Count1(e1, p);
  }

  lemma Count3(e0: Effect, e1: Effect, e2: Effect, p: Effect -> bool)
    ensures Count([e0, e1, e2], p) == Hit(p, e0) + Hit(p, e1) + Hit(p, e2)
  {
    assert [e0, e1, e2][1..] == [e1, e2];
    Count2(e1, e2, p);
  }

  lemma Count4(e0: Effect, e1: Effect, e2: Effect, e3: Effect, p: Effect -> bool)
    ensures Count([e0, e1, e2, e3], p) == Hit(p, e0) + Hit(p, e1) + Hit(p, e2) + Hit(p, e3)
  {
    assert [e0, e1, e2, e3][1..] == [e1, e2, e3];
    Count3(e1, e2, e3, p);
  }

  /** A DATA frame handed to the radio. */
  predicate IsDataSend(e: Effect)
  {
    e.StartTransmit? && e.frame.kind == Data
  }

  /** The layer above is told the packet failed. */
  predicate IsFailReport(e: Effect)
  {
    e.TxPacketDone? && e.status == TxFailed
  }

  /** The layer above is told the packet was delivered. */
  predicate IsDoneReport(e: Effect)
  {
    e.TxPacketDone? && e.status == TxDone
  }

  /** One step of a run: the first event's step, then the rest. */
  lemma RunFirst(cfg: Config, m: Mac, evs: seq<Event>, s: Step, env: Env, rules: Rules)
    requires ValidConfig(cfg) && |evs| >= 1
    requires HandleBy(rules, cfg, m, evs[0], env) == Ok(s)
    ensures Run(cfg, m, evs, env, rules) == Then(s, Run(cfg, s.mac, evs[1..], env, rules))
  {
  }

  /** Three events whose handlers return `s1`, `s2` and `s3` in turn run to
      the last state with all their effects in order. */
  lemma RunThree(cfg: Config, m: Mac, evs: seq<Event>, s1: Step, s2: Step, s3: Step, env: Env, rules: Rules := AsWritten)
    requires ValidConfig(cfg) && |evs| == 3
    requires HandleBy(rules, cfg, m, evs[0], env) == Ok(s1)
    requires HandleBy(rules, cfg, s1.mac, evs[1], env) == Ok(s2)
    requires HandleBy(rules, cfg, s2.mac, evs[2], env) == Ok(s3)
    ensures Run(cfg, m, evs, env, rules) == Ok(Step(s3.mac, s1.fx + s2.fx + s3.fx))
  {
    var e1, e2 := evs[1..], evs[1..][1..];
    assert e1[0] == evs[1] && e2[0] == evs[2] && |e2| == 1;
    RunFirst(cfg, s2.mac, e2, s3, env, rules);
    assert Run(cfg, s3.mac, e2[1..], env, rules) == Ok(Step(s3.mac, []));
    assert Run(cfg, s2.mac, e2, env, rules) == Ok(Step(s3.mac, s3.fx + []));
    RunFirst(cfg, s1.mac, e1, s2, env, rules);
    assert Run(cfg, s1.mac, e1, env, rules) == Ok(Step(s3.mac, s2.fx + (s3.fx + [])));
    RunFirst(cfg, m, evs, s1, env, rules);
    assert s1.fx + (s2.fx + (s3.fx + [])) == s1.fx + s2.fx + s3.fx;
  }

  /** One unanswered stop-and-wait round: the contention timer fires, the
      DATA transmission completes, the ack timer fires. */
  const NoAckRound: seq<Event> := [TimerFired(Protocol), TxDoneEvent, TimerFired(Protocol)]

  function NoAckRounds(n: nat): seq<Event>
  {
    if n == 0 then [] else NoAckRound + NoAckRounds(n - 1)
  }

  /** Inputs under which the channel stays quiet. */
  predicate Quiet(env: Env)
  {
    !env.receiving && !env.rssiBusy
  }

  /** Contending to send the held unicast packet `p` with `k` retries left. */
  ghost predicate ContendingFor(cfg: Config, m: Mac, p: Packet, k: int)
  {
    && m.proto == Contend && m.next == SendingData
    && m.tx == Some(p) && m.retries == k && m.nav == Clear
    && p.to != cfg.self && p.to != cfg.broadcast
  }

  /** The first two events of a round: the contention timer fires and the
      DATA frame goes out; its transmission completes and the ack timer is
      armed. One DATA attempt, no report. */
  lemma SendAndWait(cfg: Config, m: Mac, p: Packet, k: int, env: Env, rules: Rules := AsWritten)
    returns (s1: Step, s2: Step)
    requires ValidConfig(cfg) && Quiet(env) && ContendingFor(cfg, m, p, k)
    ensures HandleBy(rules, cfg, m, TimerFired(Protocol), env) == Ok(s1)
    ensures HandleBy(rules, cfg, s1.mac, TxDoneEvent, env) == Ok(s2)
    ensures s2.mac == m.(proto := WaitingAck, next := WaitingAck)
    ensures Count(s1.fx + s2.fx, IsDataSend) == 1
    ensures Count(s1.fx + s2.fx, IsFailReport) == 0
    ensures Count(s1.fx + s2.fx, IsDoneReport) == 0
  {
    s1 := ContendTimeout(cfg, m, env).step;
    var frame := Frame(Data, cfg.self, p.to, p.payload);
    assert s1.fx == [RadioListen, RadioTransmit, StartTransmit(frame)];
    s2 := TransmitDone(cfg, s1.mac, env).step;
    assert s2.fx == [SetTimeout(Protocol, cfg.timeoutWaitAck), RadioListen];
    CountAppend(s1.fx, s2.fx, IsDataSend);
    CountAppend(s1.fx, s2.fx, IsFailReport);
    CountAppend(s1.fx, s2.fx, IsDoneReport);
    Count3(RadioListen, RadioTransmit, StartTransmit(frame), IsDataSend);
    Count3(RadioListen, RadioTransmit, StartTransmit(frame), IsFailReport);
    Count3(RadioListen, RadioTransmit, StartTransmit(frame), IsDoneReport);
    Count2(SetTimeout(Protocol, cfg.timeoutWaitAck), RadioListen, IsDataSend);
    Count2(SetTimeout(Protocol, cfg.timeoutWaitAck), RadioListen, IsFailReport);
    Count2(SetTimeout(Protocol, cfg.timeoutWaitAck), RadioListen, IsDoneReport);
  }

  /** A round that is not the last one: exactly one DATA attempt, no report,
      one retry used up, the window doubled, and contending again. */
  lemma RetryRound(cfg: Config, m: Mac, p: Packet, k: int, env: Env, rules: Rules := AsWritten)
    requires ValidConfig(cfg) && Quiet(env) && ContendingFor(cfg, m, p, k) && k != 0
    ensures var r := Run(cfg, m, NoAckRound, env, rules);
            && r.Ok?
            && ContendingFor(cfg, r.step.mac, p, k - 1)
            && r.step.mac.contendTime == Doubled(m.contendTime, cfg.maxDataContend)
            && r.step.mac.txDrops == m.txDrops
            && Count(r.step.fx, IsDataSend) == 1
            && Count(r.step.fx, IsFailReport) == 0
            && Count(r.step.fx, IsDoneReport) == 0
  {
    var s1, s2 := SendAndWait(cfg, m, p, k, env, rules);
    var s3 := AckTimeout(cfg, s2.mac, env).step;
    assert HandleBy(rules, cfg, s2.mac, NoAckRound[2], env) == Ok(s3);
    RunThree(cfg, m, NoAckRound, s1, s2, s3, env, rules);
    assert s3.fx == [s3.fx[0], s3.fx[1]];
    Count2(s3.fx[0], s3.fx[1], IsDataSend);
    Count2(s3.fx[0], s3.fx[1], IsFailReport);
    Count2(s3.fx[0], s3.fx[1], IsDoneReport);
    CountAppend(s1.fx + s2.fx, s3.fx, IsDataSend);
    CountAppend(s1.fx + s2.fx, s3.fx, IsFailReport);
    CountAppend(s1.fx + s2.fx, s3.fx, IsDoneReport);
  }

  /** The last round, with no retries left: one DATA attempt, then the packet
      is reported failed, dropped and released, and the machine stays in
      WFACK with nothing held. */
  lemma LastRound(cfg: Config, m: Mac, p: Packet, env: Env, rules: Rules := AsWritten)
    requires ValidConfig(cfg) && Quiet(env) && ContendingFor(cfg, m, p, 0)
    ensures var r := Run(cfg, m, NoAckRound, env, rules);
            && r.Ok?
            && r.step.mac.proto == WaitingAck && r.step.mac.tx.None?
            && r.step.mac.contendTime == m.contendTime
            && r.step.mac.txDrops == m.txDrops + 1
            && Count(r.step.fx, IsDataSend) == 1
            && Count(r.step.fx, IsFailReport) == 1
            && Count(r.step.fx, IsDoneReport) == 0
  {
    var s1, s2 := SendAndWait(cfg, m, p, 0, env, rules);
    var s3 := AckTimeout(cfg, s2.mac, env).step;
    assert HandleBy(rules, cfg, s2.mac, NoAckRound[2], env) == Ok(s3);
    RunThree(cfg, m, NoAckRound, s1, s2, s3, env, rules);
    assert s3.fx == [TxPacketDone(p, TxFailed)];
    Count1(TxPacketDone(p, TxFailed), IsDataSend);
    Count1(TxPacketDone(p, TxFailed), IsFailReport);
    Count1(TxPacketDone(p, TxFailed), IsDoneReport);
    CountAppend(s1.fx + s2.fx, s3.fx, IsDataSend);
    CountAppend(s1.fx + s2.fx, s3.fx, IsFailReport);
    CountAppend(s1.fx + s2.fx, s3.fx, IsDoneReport);
  }

  /** Doubling first and then k more times is doubling k + 1 times. */
  lemma {:induction false} IncTimesShift(w: int, max: int, k: nat)
    ensures IncTimes(Doubled(w, max), max, k) == IncTimes(w, max, k + 1)
    decreases k
  {
    if k > 0 {
      IncTimesShift(w, max, k - 1);
    }
  }

  /** What k + 1 unanswered rounds from `m` produce: exactly k + 1 DATA
      attempts and exactly one failure report, never success; the window
      doubled k times (capped); one drop counted; WFACK with nothing held. */
  ghost predicate ExhaustedFrom(cfg: Config, m: Mac, k: nat, r: Outcome)
  {
    Spent(cfg, m, k, r) && r.step.mac.proto == WaitingAck
  }

  /** The same, with no claim about the state the machine is left in. */
  ghost predicate Spent(cfg: Config, m: Mac, k: nat, r: Outcome)
  {
    && r.Ok?
    && r.step.mac.tx.None?
    && r.step.mac.contendTime == IncTimes(m.contendTime, cfg.maxDataContend, k)
    && r.step.mac.txDrops == m.txDrops + 1
    && Count(r.step.fx, IsDataSend) == k + 1
    && Count(r.step.fx, IsFailReport) == 1
    && Count(r.step.fx, IsDoneReport) == 0
  }

  /** Contending with `k` retries left and no ACK ever arriving, k + 1
      rounds exhaust the retries (by induction on k). */
  lemma {:induction false} Exhaust(cfg: Config, m: Mac, p: Packet, k: nat, env: Env)
    requires ValidConfig(cfg) && Quiet(env) && ContendingFor(cfg, m, p, k)
    ensures ExhaustedFrom(cfg, m, k, Run(cfg, m, NoAckRounds(k + 1), env))
    decreases k, 1
  {
    if k == 0 {
      ExhaustLast(cfg, m, p, env);
    } else {
      ExhaustNext(cfg, m, p, k, env);
    }
  }

  lemma ExhaustLast(cfg: Config, m: Mac, p: Packet, env: Env)
    requires ValidConfig(cfg) && Quiet(env) && ContendingFor(cfg, m, p, 0)
    ensures ExhaustedFrom(cfg, m, 0, Run(cfg, m, NoAckRounds(1), env))
  {
    assert NoAckRounds(1) == NoAckRound + NoAckRounds(0);
    LastRound(cfg, m, p, env);
    var s := Run(cfg, m, NoAckRound, env).step;
    assert Run(cfg, s.mac, NoAckRounds(0), env) == Ok(Step(s.mac, []));
    RunConcat(cfg, m, NoAckRound, NoAckRounds(0), env);
    assert s.fx + [] == s.fx;
  }

  lemma ExhaustNext(cfg: Config, m: Mac, p: Packet, k: nat, env: Env)
    requires ValidConfig(cfg) && Quiet(env) && ContendingFor(cfg, m, p, k) && k > 0
    ensures ExhaustedFrom(cfg, m, k, Run(cfg, m, NoAckRounds(k + 1), env))
    decreases k, 0
  {
    assert NoAckRounds(k + 1) == NoAckRound + NoAckRounds(k);
    RetryRound(cfg, m, p, k, env);
    var s := Run(cfg, m, NoAckRound, env).step;
    Exhaust(cfg, s.mac, p, k - 1, env);
    RunAppend(cfg, m, NoAckRound, NoAckRounds(k), env);
    SpentCompose(cfg, m, s, Run(cfg, s.mac, NoAckRounds(k), env), k);
  }

  /** An idle machine with nothing held, a clear NAV and the base window. */
  ghost predicate Fresh(cfg: Config, m: Mac)
  {
    m.proto == Idle && m.tx.None? && m.nav == Clear && m.contendTime == cfg.dataContend
  }

  /** A unicast send with R = maxRetries retries that is never acknowledged
      makes exactly R + 1 DATA attempts and reports failure exactly once;
      the window ends at min(base * 2^R, max), and the machine is left in
      WFACK with no packet held. */
  lemma UnicastWithoutAck(cfg: Config, m: Mac, p: Packet, env: Env)
    requires ValidConfig(cfg) && Quiet(env) && Fresh(cfg, m)
    requires cfg.maxRetries >= 0 && cfg.dataContend <= cfg.maxDataContend
    requires p.to != cfg.self && p.to != cfg.broadcast
    ensures var r := Run(cfg, m, [Send(p)] + NoAckRounds(cfg.maxRetries + 1), env);
            && r.Ok?
            && Count(r.step.fx, IsDataSend) == cfg.maxRetries + 1
            && Count(r.step.fx, IsFailReport) == 1
            && Count(r.step.fx, IsDoneReport) == 0
            && r.step.mac.txDrops == m.txDrops + 1
            && r.step.mac.contendTime == Min(cfg.dataContend * Pow2(cfg.maxRetries), cfg.maxDataContend)
            && r.step.mac.proto == WaitingAck && r.step.mac.tx.None?
  {
    var k: nat := cfg.maxRetries;
    var s := TxPacket(cfg, m, p, env);
    assert s.fx == [s.fx[0], s.fx[1]];
    assert Run(cfg, s.mac, [Send(p)][1..], env) == Ok(Step(s.mac, []));
    assert Run(cfg, m, [Send(p)], env) == Ok(Step(s.mac, s.fx + []));
    RunAppend(cfg, m, [Send(p)], NoAckRounds(k + 1), env);
    Exhaust(cfg, s.mac, p, k, env);
    var t := Run(cfg, s.mac, NoAckRounds(k + 1), env).step;
    Count2(s.fx[0], s.fx[1], IsDataSend);
    Count2(s.fx[0], s.fx[1], IsFailReport);
    Count2(s.fx[0], s.fx[1], IsDoneReport);
    assert s.fx + [] == s.fx;
    CountAppend(s.fx, t.fx, IsDataSend);
    CountAppend(s.fx, t.fx, IsFailReport);
    CountAppend(s.fx, t.fx, IsDoneReport);
    WindowAfterFailures(cfg.dataContend, cfg.maxDataContend, k);
  }

  /** After the retries run out the machine waits for an ACK with nothing
      held (see UnicastWithoutAck). An ACK addressed to this node in that state
      reaches the dereference of the NULL tx_msg at line 252. */
  lemma AckAfterExhaustionAborts(cfg: Config, m: Mac, f: Frame, env: Env)
    requires ValidConfig(cfg) && m.proto == WaitingAck && m.tx.None?
    requires f.kind == Ack && f.to == cfg.self
    ensures Handle(cfg, m, FrameArrived(f), env).Fail?
    ensures cfg.self != -1 ==> Handle(cfg, m, FrameArrived(f), env) == Fail(NoTransmission)
  {
  }

  /** In the same state a new packet is accepted with the full retry budget,
      but nothing is put on the air: the machine is not idle, so evalState
      does nothing, and no timer is pending to move it on. */
  lemma SendAfterExhaustionIsSilent(cfg: Config, m: Mac, p: Packet, env: Env)
    requires ValidConfig(cfg) && m.proto == WaitingAck && m.tx.None? && p.to != cfg.self
    ensures Handle(cfg, m, Send(p), env) == Ok(Step(m.(tx := Some(p), retries := cfg.maxRetries), []))
  {
  }

  /** A frame that ends the wait gets such a packet moving: it sends the
      machine back to contention for it. (The NavTimeout, RxFailed and
      RxStarted contracts show that those events leave a WFACK machine's
      state, pending action and held packet unchanged.) */
  lemma StuckSendResumedByFrame(cfg: Config, m: Mac, f: Frame, env: Env)
    requires ValidConfig(cfg) && Quiet(env) && m.proto == WaitingAck && m.nav == Clear
    requires m.tx.Some? && Interrupting(cfg, f)
    ensures var r := Handle(cfg, m, FrameArrived(f), env);
            && r.Ok? && r.step.mac.proto == Contend && r.step.mac.next == SendingData
            && r.step.mac.tx == m.tx && r.step.mac.retries == m.retries
  {
  }

  /** A busy RSSI sample while contending to send an ACK loses that ACK
      (line 178 calls setIdle only). With a packet held, evalState overwrites
      the pending SEND_ACK with SEND_DATA (line 71). With none held, the
      machine idles with SEND_ACK still pending, which nothing consumes: the
      next packet offered overwrites it too. No ACK is put on the air. */
  lemma RssiAbortLosesAck(cfg: Config, m: Mac, p: Packet, env: Env)
    requires ValidConfig(cfg) && m.proto == Contend && m.next == SendingAck && m.nav == Clear
    requires !env.receiving && env.rssiBusy && p.to != cfg.self
    ensures var r := Handle(cfg, m, TimerFired(Protocol), env);
            && r.Ok?
            && (forall e :: e in r.step.fx ==> !e.StartTransmit?)
            && (m.tx.Some? ==> r.step.mac.proto == Contend && r.step.mac.next == SendingData)
            && (m.tx.None? ==>
                  && r.step.mac.proto == Idle && r.step.mac.next == SendingAck
                  && r.step.fx == [RadioListen, RadioListen]
                  && Handle(cfg, r.step.mac, Send(p), env).step.mac.next == SendingData)
  {
  }

  /** One acknowledged round: the contention timer fires, the DATA
      transmission completes, and the ACK from the destination arrives. */
  function AckedRound(cfg: Config, p: Packet): seq<Event>
  {
    [TimerFired(Protocol), TxDoneEvent, FrameArrived(Frame(Ack, p.to, cfg.self, []))]
  }

  /** Contending for a unicast packet and acknowledged: one DATA attempt,
      success reported exactly once and failure never; the packet is
      released, the machine is idle and the window is back at its base. */
  lemma AckedSend(cfg: Config, m: Mac, p: Packet, k: int, env: Env)
    requires ValidConfig(cfg) && Quiet(env) && ContendingFor(cfg, m, p, k)
    requires cfg.self != -1
    ensures var r := Run(cfg, m, AckedRound(cfg, p), env);
            && r.Ok?
            && r.step.mac.proto == Idle && r.step.mac.tx.None?
            && r.step.mac.contendTime == cfg.dataContend
            && r.step.mac.txCount == m.txCount + 1
            && Count(r.step.fx, IsDataSend) == 1
            && Count(r.step.fx, IsDoneReport) == 1
            && Count(r.step.fx, IsFailReport) == 0
  {
    var evs := AckedRound(cfg, p);
    var s1, s2 := SendAndWait(cfg, m, p, k, env);
    var ack := Frame(Ack, p.to, cfg.self, []);
    var s3 := RxFrame(cfg, s2.mac, ack, env).step;
    var a := ReceiveAck(cfg, s2.mac, ack, env).step;
    assert a.mac.proto == Idle && a.mac.tx.None?;
    assert a.fx == [CancelTimeout(Protocol), TxPacketDone(p, TxDone), RadioListen];
    assert s3.fx == [CancelTimeout(Protocol), TxPacketDone(p, TxDone), RadioListen, RadioListen];
    assert Handle(cfg, s2.mac, evs[2], env) == Ok(s3);
    RunThree(cfg, m, evs, s1, s2, s3, env);
    Count4(CancelTimeout(Protocol), TxPacketDone(p, TxDone), RadioListen, RadioListen, IsDataSend);
    Count4(CancelTimeout(Protocol), TxPacketDone(p, TxDone), RadioListen, RadioListen, IsFailReport);
    Count4(CancelTimeout(Protocol), TxPacketDone(p, TxDone), RadioListen, RadioListen, IsDoneReport);
    CountAppend(s1.fx + s2.fx, s3.fx, IsDataSend);
    CountAppend(s1.fx + s2.fx, s3.fx, IsFailReport);
    CountAppend(s1.fx + s2.fx, s3.fx, IsDoneReport);
  }

  /** A DATA frame overheard for a third node, by an idle node with a clear
      NAV: nothing is delivered, the medium is reserved until now + NAV_ACK
      (mod 2^16) with the NAV timer armed for NAV_ACK, and the idle
      re-evaluation that follows puts the radio to sleep. */
  lemma OverheardData(cfg: Config, m: Mac, f: Frame, env: Env)
    requires ValidConfig(cfg) && m.proto == Idle && m.nav == Clear && !env.receiving
    requires f.kind == Data && f.to != cfg.self && f.to != cfg.broadcast
    ensures var r := RxFrame(cfg, m, f, env);
            && r.Ok?
            && r.step.mac.nav == Busy
            && r.step.mac.navEnd == Add16(env.now, cfg.navAck)
            && r.step.mac.proto == Idle
            && r.step.mac.rxCount == m.rxCount
            && r.step.fx == [SetTimeout(NavTimer, cfg.navAck as int), RadioSleep]
  {
    var d := ReceiveData(cfg, m, f, env);
    assert d.mac == m.(proto := Idle, next := Idle, nav := Busy, navEnd := Add16(env.now, cfg.navAck));
  }

  /** Receiving a unicast DATA frame from `s` and then winning the contention
      sends the ACK to `s`: the ACK goes to the sender of the frame it
      acknowledges (lines 278, 286-287 and 218-219). */
  lemma AckGoesToSender(cfg: Config, m: Mac, s: NodeId, pl: seq<bv8>, env: Env)
    requires ValidConfig(cfg) && Quiet(env) && m.proto == Idle && m.nav == Clear && s >= 0
    ensures var d := Frame(Data, s, cfg.self, pl);
            var r := Run(cfg, m, [FrameArrived(d), TimerFired(Protocol)], env);
            && r.Ok?
            && r.step.mac.proto == SendingAck && r.step.mac.ackTo == Some(s)
            && r.step.mac.rxCount == m.rxCount + 1
            && RxPacket(d) in r.step.fx
            && StartTransmit(Frame(Ack, cfg.self, s, [])) in r.step.fx
  {
    var d := Frame(Data, s, cfg.self, pl);
    var evs := [FrameArrived(d), TimerFired(Protocol)];
    var s1 := RxFrame(cfg, m, d, env).step;
    assert s1.mac.proto == Contend && s1.mac.next == SendingAck && s1.mac.ackTo == Some(s);
    assert s1.fx[0] == RxPacket(d);
    var s2 := ContendTimeout(cfg, s1.mac, env).step;
    assert s2.fx == [RadioListen, RadioTransmit, StartTransmit(Frame(Ack, cfg.self, s, []))];
    RunFirst(cfg, s1.mac, evs[1..], s2, env, AsWritten);
    assert Run(cfg, s2.mac, evs[1..][1..], env) == Ok(Step(s2.mac, []));
    RunFirst(cfg, m, evs, s1, env, AsWritten);
    var fx := s1.fx + (s2.fx + []);
    assert Run(cfg, m, evs, env) == Ok(Step(s2.mac, fx));
    assert fx[0] == RxPacket(d);
    assert fx[|s1.fx| + 2] == s2.fx[2];
  }

  /** A frame that ends the wait for an ACK without being one: an ACK for
      some other node (and not to -1, which the source rejects). */
  predicate Interrupting(cfg: Config, f: Frame)
  {
    f.kind == Ack && f.to != cfg.self && f.to != -1
  }

  /** A stop-and-wait round that an overheard ACK for another node cuts
      short: the contention timer fires, the DATA transmission completes, the
      foreign ACK arrives. */
  function InterruptedRound(f: Frame): seq<Event>
  {
    [TimerFired(Protocol), TxDoneEvent, FrameArrived(f)]
  }

  /** As written, an interrupted round costs a DATA attempt but no retry: the
      window doubles and the machine contends again with the same budget. */
  lemma InterruptedRoundKeepsRetries(cfg: Config, m: Mac, p: Packet, k: int, f: Frame, env: Env)
    requires ValidConfig(cfg) && Quiet(env) && ContendingFor(cfg, m, p, k) && Interrupting(cfg, f)
    ensures var r := Run(cfg, m, InterruptedRound(f), env);
            && r.Ok?
            && ContendingFor(cfg, r.step.mac, p, k)
            && r.step.mac.contendTime == Doubled(m.contendTime, cfg.maxDataContend)
            && r.step.mac.txDrops == m.txDrops
            && Count(r.step.fx, IsDataSend) == 1
            && Count(r.step.fx, IsFailReport) == 0
            && Count(r.step.fx, IsDoneReport) == 0
  {
    var s1, s2 := SendAndWait(cfg, m, p, k, env);
    var s3 := RxFrame(cfg, s2.mac, f, env).step;
    assert HandleBy(AsWritten, cfg, s2.mac, InterruptedRound(f)[2], env) == Ok(s3);
    RunThree(cfg, m, InterruptedRound(f), s1, s2, s3, env);
    assert s3.fx == [s3.fx[0], s3.fx[1], s3.fx[2]];
    Count3(s3.fx[0], s3.fx[1], s3.fx[2], IsDataSend);
    Count3(s3.fx[0], s3.fx[1], s3.fx[2], IsFailReport);
    Count3(s3.fx[0], s3.fx[1], s3.fx[2], IsDoneReport);
    CountAppend(s1.fx + s2.fx, s3.fx, IsDataSend);
    CountAppend(s1.fx + s2.fx, s3.fx, IsFailReport);
    CountAppend(s1.fx + s2.fx, s3.fx, IsDoneReport);
  }

  /** The source as written exceeds the retry budget: a unicast send with
      R retries, one round cut short by a foreign ACK and then never
      acknowledged, makes R + 2 DATA attempts before its one TX_FAILED. */
  lemma InterruptedSendWithoutAck(cfg: Config, m: Mac, p: Packet, f: Frame, env: Env)
    requires ValidConfig(cfg) && Quiet(env) && Fresh(cfg, m) && Interrupting(cfg, f)
    requires cfg.maxRetries >= 0
    requires p.to != cfg.self && p.to != cfg.broadcast
    ensures var r := Run(cfg, m, [Send(p)] + InterruptedRound(f) + NoAckRounds(cfg.maxRetries + 1), env);
            && r.Ok?
            && Count(r.step.fx, IsDataSend) == cfg.maxRetries + 2
            && Count(r.step.fx, IsFailReport) == 1
            && Count(r.step.fx, IsDoneReport) == 0
            && r.step.mac.proto == WaitingAck && r.step.mac.tx.None?
  {
    var k: nat := cfg.maxRetries;
    var s := TxPacket(cfg, m, p, env);
    assert s.fx == [s.fx[0], s.fx[1]];
    assert Run(cfg, s.mac, [Send(p)][1..], env) == Ok(Step(s.mac, []));
    assert Run(cfg, m, [Send(p)], env) == Ok(Step(s.mac, s.fx + []));
    assert s.fx + [] == s.fx;
    InterruptedRoundKeepsRetries(cfg, s.mac, p, k, f, env);
    var i := Run(cfg, s.mac, InterruptedRound(f), env).step;
    RunConcat(cfg, m, [Send(p)], InterruptedRound(f), env);
    Exhaust(cfg, i.mac, p, k, env);
    var t := Run(cfg, i.mac, NoAckRounds(k + 1), env).step;
    RunConcat(cfg, m, [Send(p)] + InterruptedRound(f), NoAckRounds(k + 1), env);
    Count2(s.fx[0], s.fx[1], IsDataSend);
    Count2(s.fx[0], s.fx[1], IsFailReport);
    Count2(s.fx[0], s.fx[1], IsDoneReport);
    CountAppend(s.fx, i.fx, IsDataSend);
    CountAppend(s.fx, i.fx, IsFailReport);
    CountAppend(s.fx, i.fx, IsDoneReport);
    CountAppend(s.fx + i.fx, t.fx, IsDataSend);
    CountAppend(s.fx + i.fx, t.fx, IsFailReport);
    CountAppend(s.fx + i.fx, t.fx, IsDoneReport);
  }

  /** Under the counted rules, an interrupted round with retries left costs
      exactly what an unanswered one does: one DATA attempt, no report, one
      retry used, the window doubled, contending again. */
  lemma CountedInterruptRetry(cfg: Config, m: Mac, p: Packet, k: int, f: Frame, env: Env)
    requires ValidConfig(cfg) && Quiet(env) && ContendingFor(cfg, m, p, k) && k != 0 && Interrupting(cfg, f)
    ensures var r := Run(cfg, m, InterruptedRound(f), env, Counted);
            && r.Ok?
            && ContendingFor(cfg, r.step.mac, p, k - 1)
            && r.step.mac.contendTime == Doubled(m.contendTime, cfg.maxDataContend)
            && r.step.mac.txDrops == m.txDrops
            && Count(r.step.fx, IsDataSend) == 1
            && Count(r.step.fx, IsFailReport) == 0
            && Count(r.step.fx, IsDoneReport) == 0
  {
    var s1, s2 := SendAndWait(cfg, m, p, k, env, Counted);
    var s3 := RxFrameCounted(cfg, s2.mac, f, env).step;
    assert HandleBy(Counted, cfg, s2.mac, InterruptedRound(f)[2], env) == Ok(s3);
    RunThree(cfg, m, InterruptedRound(f), s1, s2, s3, env, Counted);
    assert s3.fx == [s3.fx[0], s3.fx[1], s3.fx[2]];
    Count3(s3.fx[0], s3.fx[1], s3.fx[2], IsDataSend);
    Count3(s3.fx[0], s3.fx[1], s3.fx[2], IsFailReport);
    Count3(s3.fx[0], s3.fx[1], s3.fx[2], IsDoneReport);
    CountAppend(s1.fx + s2.fx, s3.fx, IsDataSend);
    CountAppend(s1.fx + s2.fx, s3.fx, IsFailReport);
    CountAppend(s1.fx + s2.fx, s3.fx, IsDoneReport);
  }

  /** Under the counted rules, an interrupted round with no retry left ends
      the packet: one DATA attempt, one TX_FAILED, the drop counted, nothing
      held. */
  lemma CountedInterruptLast(cfg: Config, m: Mac, p: Packet, f: Frame, env: Env)
    requires ValidConfig(cfg) && Quiet(env) && ContendingFor(cfg, m, p, 0) && Interrupting(cfg, f)
    ensures var r := Run(cfg, m, InterruptedRound(f), env, Counted);
            && r.Ok?
            && r.step.mac.tx.None?
            && r.step.mac.contendTime == m.contendTime
            && r.step.mac.txDrops == m.txDrops + 1
            && Count(r.step.fx, IsDataSend) == 1
            && Count(r.step.fx, IsFailReport) == 1
            && Count(r.step.fx, IsDoneReport) == 0
  {
    var s1, s2 := SendAndWait(cfg, m, p, 0, env, Counted);
    var s3 := RxFrameCounted(cfg, s2.mac, f, env).step;
    assert HandleBy(Counted, cfg, s2.mac, InterruptedRound(f)[2], env) == Ok(s3);
    RunThree(cfg, m, InterruptedRound(f), s1, s2, s3, env, Counted);
    assert s3.fx == [CancelTimeout(Protocol), TxPacketDone(p, TxFailed), RadioListen];
    Count3(CancelTimeout(Protocol), TxPacketDone(p, TxFailed), RadioListen, IsDataSend);
    Count3(CancelTimeout(Protocol), TxPacketDone(p, TxFailed), RadioListen, IsFailReport);
    Count3(CancelTimeout(Protocol), TxPacketDone(p, TxFailed), RadioListen, IsDoneReport);
    CountAppend(s1.fx + s2.fx, s3.fx, IsDataSend);
    CountAppend(s1.fx + s2.fx, s3.fx, IsFailReport);
    CountAppend(s1.fx + s2.fx, s3.fx, IsDoneReport);
  }

  /** A round of a never-acknowledged exchange: either the ack timer fires,
      or a foreign ACK cuts the wait short. */
  datatype Round = Unanswered | Interrupted(frame: Frame)

  function RoundEvents(rd: Round): seq<Event>
  {
    match rd
    case Unanswered => NoAckRound
    case Interrupted(f) => InterruptedRound(f)
  }

  function Rounds(rs: seq<Round>): seq<Event>
  {
    if |rs| == 0 then [] else RoundEvents(rs[0]) + Rounds(rs[1..])
  }

  /** Every interrupted round is cut short by an Interrupting frame. */
  predicate ForeignAcks(cfg: Config, rs: seq<Round>)
  {
    forall i :: 0 <= i < |rs| && rs[i].Interrupted? ==> Interrupting(cfg, rs[i].frame)
  }

  /** One round of either kind with retries left, under the counted rules. */
  lemma CountedRoundRetry(cfg: Config, m: Mac, p: Packet, k: int, rd: Round, env: Env)
    requires ValidConfig(cfg) && Quiet(env) && ContendingFor(cfg, m, p, k) && k != 0
    requires rd.Interrupted? ==> Interrupting(cfg, rd.frame)
    ensures var r := Run(cfg, m, RoundEvents(rd), env, Counted);
            && r.Ok?
            && ContendingFor(cfg, r.step.mac, p, k - 1)
            && r.step.mac.contendTime == Doubled(m.contendTime, cfg.maxDataContend)
            && r.step.mac.txDrops == m.txDrops
            && Count(r.step.fx, IsDataSend) == 1
            && Count(r.step.fx, IsFailReport) == 0
            && Count(r.step.fx, IsDoneReport) == 0
  {
    match rd
    case Unanswered => RetryRound(cfg, m, p, k, env, Counted);
    case Interrupted(f) => CountedInterruptRetry(cfg, m, p, k, f, env);
  }

  /** One round of either kind with no retry left, under the counted rules. */
  lemma CountedRoundLast(cfg: Config, m: Mac, p: Packet, rd: Round, env: Env)
    requires ValidConfig(cfg) && Quiet(env) && ContendingFor(cfg, m, p, 0)
    requires rd.Interrupted? ==> Interrupting(cfg, rd.frame)
    ensures Spent(cfg, m, 0, Run(cfg, m, RoundEvents(rd), env, Counted))
  {
    match rd
    case Unanswered => LastRound(cfg, m, p, env, Counted);
    case Interrupted(f) => CountedInterruptLast(cfg, m, p, f, env);
  }

  /** With every frame that ends the wait charged to the retry budget, any
      k + 1 rounds -- unanswered or cut short by foreign ACKs, in any order --
      from k retries make exactly k + 1 DATA attempts and one TX_FAILED, and
      never report success (by induction on the rounds). */
  lemma {:induction false} ExhaustCounted(cfg: Config, m: Mac, p: Packet, rs: seq<Round>, env: Env)
    requires ValidConfig(cfg) && Quiet(env) && |rs| >= 1
    requires ContendingFor(cfg, m, p, |rs| - 1) && ForeignAcks(cfg, rs)
    ensures Spent(cfg, m, |rs| - 1, Run(cfg, m, Rounds(rs), env, Counted))
    decreases |rs|, 1
  {
    if |rs| == 1 {
      ExhaustCountedLast(cfg, m, p, rs, env);
    } else {
      ExhaustCountedNext(cfg, m, p, rs, env);
    }
  }

  lemma ExhaustCountedLast(cfg: Config, m: Mac, p: Packet, rs: seq<Round>, env: Env)
    requires ValidConfig(cfg) && Quiet(env) && |rs| == 1
    requires ContendingFor(cfg, m, p, 0) && ForeignAcks(cfg, rs)
    ensures Spent(cfg, m, 0, Run(cfg, m, Rounds(rs), env, Counted))
  {
    assert Rounds(rs) == RoundEvents(rs[0]) + Rounds(rs[1..]);
    assert Rounds(rs[1..]) == [];
    CountedRoundLast(cfg, m, p, rs[0], env);
    var s := Run(cfg, m, RoundEvents(rs[0]), env, Counted).step;
    assert Run(cfg, s.mac, [], env, Counted) == Ok(Step(s.mac, []));
    RunConcat(cfg, m, RoundEvents(rs[0]), [], env, Counted);
    assert s.fx + [] == s.fx;
  }

  lemma ExhaustCountedNext(cfg: Config, m: Mac, p: Packet, rs: seq<Round>, env: Env)
    requires ValidConfig(cfg) && Quiet(env) && |rs| > 1
    requires ContendingFor(cfg, m, p, |rs| - 1) && ForeignAcks(cfg, rs)
    ensures Spent(cfg, m, |rs| - 1, Run(cfg, m, Rounds(rs), env, Counted))
    decreases |rs|, 0
  {
    var k: nat := |rs| - 1;
    assert Rounds(rs) == RoundEvents(rs[0]) + Rounds(rs[1..]);
    CountedRoundRetry(cfg, m, p, k, rs[0], env);
    var s := Run(cfg, m, RoundEvents(rs[0]), env, Counted).step;
    ForeignAcksTail(cfg, rs);
    ExhaustCounted(cfg, s.mac, p, rs[1..], env);
    RunAppend(cfg, m, RoundEvents(rs[0]), Rounds(rs[1..]), env, Counted);
    SpentCompose(cfg, m, s, Run(cfg, s.mac, Rounds(rs[1..]), env, Counted), k);
  }

  lemma ForeignAcksTail(cfg: Config, rs: seq<Round>)
    requires |rs| >= 1 && ForeignAcks(cfg, rs)
    ensures ForeignAcks(cfg, rs[1..])
  {
    forall i | 0 <= i < |rs[1..]| && rs[1..][i].Interrupted?
      ensures Interrupting(cfg, rs[1..][i].frame)
    {
      assert rs[1..][i] == rs[i + 1];
    }
  }

  /** A retry round (one attempt, no report, window doubled) followed by a
      run that spends the remaining k - 1 retries spends k. */
  lemma SpentCompose(cfg: Config, m: Mac, s: Step, t: Outcome, k: nat)
    requires k >= 1
    requires s.mac.contendTime == Doubled(m.contendTime, cfg.maxDataContend)
    requires s.mac.txDrops == m.txDrops
    requires Count(s.fx, IsDataSend) == 1 && Count(s.fx, IsFailReport) == 0 && Count(s.fx, IsDoneReport) == 0
    requires Spent(cfg, s.mac, k - 1, t)
    ensures Spent(cfg, m, k, Then(s, t))
  {
    CountAppend(s.fx, t.step.fx, IsDataSend);
    CountAppend(s.fx, t.step.fx, IsFailReport);
    CountAppend(s.fx, t.step.fx, IsDoneReport);
    IncTimesShift(m.contendTime, cfg.maxDataContend, k - 1);
  }

  /** The bound the retry budget is meant to give, under the counted rules:
      a unicast send with R retries that is never acknowledged -- whether each
      wait ends by the ack timer or by a foreign ACK -- makes exactly R + 1
      DATA attempts, reports TX_FAILED once and never TX_DONE, and leaves the
      window at min(base * 2^R, max). */
  lemma UnicastWithoutAckCounted(cfg: Config, m: Mac, p: Packet, rs: seq<Round>, env: Env)
    requires ValidConfig(cfg) && Quiet(env) && Fresh(cfg, m)
    requires cfg.maxRetries >= 0 && cfg.dataContend <= cfg.maxDataContend
    requires p.to != cfg.self && p.to != cfg.broadcast
    requires |rs| == cfg.maxRetries + 1 && ForeignAcks(cfg, rs)
    ensures var r := Run(cfg, m, [Send(p)] + Rounds(rs), env, Counted);
            && r.Ok?
            && Count(r.step.fx, IsDataSend) == cfg.maxRetries + 1
            && Count(r.step.fx, IsFailReport) == 1
            && Count(r.step.fx, IsDoneReport) == 0
            && r.step.mac.txDrops == m.txDrops + 1
            && r.step.mac.contendTime == Min(cfg.dataContend * Pow2(cfg.maxRetries), cfg.maxDataContend)
            && r.step.mac.tx.None?
  {
    var k: nat := cfg.maxRetries;
    var s := TxPacket(cfg, m, p, env);
    assert s.fx == [s.fx[0], s.fx[1]];
    assert HandleBy(Counted, cfg, m, Send(p), env) == Ok(s);
    assert Run(cfg, s.mac, [Send(p)][1..], env, Counted) == Ok(Step(s.mac, []));
    assert Run(cfg, m, [Send(p)], env, Counted) == Ok(Step(s.mac, s.fx + []));
    assert s.fx + [] == s.fx;
    RunAppend(cfg, m, [Send(p)], Rounds(rs), env, Counted);
    ExhaustCounted(cfg, s.mac, p, rs, env);
    var t := Run(cfg, s.mac, Rounds(rs), env, Counted).step;
    Count2(s.fx[0], s.fx[1], IsDataSend);
    Count2(s.fx[0], s.fx[1], IsFailReport);
    Count2(s.fx[0], s.fx[1], IsDoneReport);
    CountAppend(s.fx, t.fx, IsDataSend);
    CountAppend(s.fx, t.fx, IsFailReport);
    CountAppend(s.fx, t.fx, IsDoneReport);
    WindowAfterFailures(cfg.dataContend, cfg.maxDataContend, k);
  }
}

=== FILE: types.dfy ===
/** Data model of the CsmaAck MAC: its protocol state, the effects a handler
    asks of the radio, the timers and the layer above, and the per-event inputs
    that the source reads from its environment. */
module MacTypes {

  type NodeId = int

  /** An unsigned 16-bit value (the source's ushort). */
  newtype ushort = x: int | 0 <= x < 0x1_0000

  /** Unsigned 16-bit addition, wrapping modulo 2^16. */
  function Add16(a: ushort, b: ushort): ushort
  {
    ((a as int + b as int) % 0x1_0000) as ushort
  }

  /** Unsigned 16-bit subtraction, wrapping modulo 2^16. */
  function Sub16(a: ushort, b: ushort): ushort
  {
    ((a as int - b as int) % 0x1_0000) as ushort
  }

  datatype Option<T> = None | Some(value: T)

  /** The protocol state enum. `NoState` is PROTO_STATE_NONE: it is only meant
      for the pending action, and it is distinct from every real state. */
  datatype ProtoState = Idle | Contend | SendingData | SendingAck | WaitingAck | NoState

  datatype NavState = Clear | Busy

  /** Header kind of a frame. */
  datatype Kind = Data | Ack

  /** The two timer slots of the module. */
  datatype Timer = Protocol | NavTimer

  /** What the layer above is told about a packet it handed down. */
  datatype TxStatus = TxDone | TxFailed

  /** A packet handed down for transmission: its destination and opaque payload. */
  datatype Packet = Packet(to: NodeId, payload: seq<bv8>)

  /** A frame on the air. An ACK carries an empty payload. */
  datatype Frame = Frame(kind: Kind, from: NodeId, to: NodeId, payload: seq<bv8>)

  /** Requests a handler makes of its collaborators, in the order it makes them. */
  datatype Effect =
    | RadioListen
    | RadioSleep
    | RadioTransmit
    | StartTransmit(frame: Frame)
    | SetTimeout(timer: Timer, delay: int)
    | CancelTimeout(timer: Timer)
    | TxPacketDone(packet: Packet, status: TxStatus)
    | RxPacket(frame: Frame)

  /** The compile-time constants of the module and the node's identity. */
  datatype Config = Config(
    self: NodeId,
    broadcast: NodeId,
    dataContend: int,       // DATA_CONTEND_TIME, the base backoff window
    maxDataContend: int,    // MAX_DATA_CONTEND_TIME
    ackContend: int,        // ACK_CONTEND_TIME
    timeoutWaitAck: int,    // TIMEOUT_WFACK
    navAck: ushort,         // NAV_ACK, passed as an unsigned short
    maxRetries: int)        // maxPacketRetries

  /** What the source's assertions demand of the constants: every contention
      window it passes to startContending is at least 5, and NAV_ACK is positive. */
  predicate ValidConfig(cfg: Config)
  {
    cfg.dataContend >= 5 && cfg.ackContend >= 5 && cfg.navAck > 0
  }

  /** What a handler reads from its environment: the 16-bit clock, whether the
      radio is receiving, whether the RSSI sample exceeds the threshold, and the
      draw that decides the random contention delay. */
  datatype Env = Env(now: ushort, receiving: bool, rssiBusy: bool, draw: nat)

  /** The fields of the MAC module that its handlers read and write. */
  datatype Mac = Mac(
    proto: ProtoState,      // proto_state
    next: ProtoState,       // proto_next_state
    tx: Option<Packet>,     // tx_msg, absent when NULL
    retries: int,           // packet_retries
    contendTime: int,       // data_contend_time, the backoff window
    nav: NavState,          // nav_state
    navEnd: ushort,         // nav_end_time
    ackTo: Option<NodeId>,  // ack_to, None until first assigned
    txDrops: nat,           // stat_tx_drop
    txCount: nat,           // stat_tx
    rxCount: nat)           // stat_rx

  /** The state a handler leaves behind and the effects it produced. */
  datatype Step = Step(mac: Mac, fx: seq<Effect>)

  /** The assertion (or null dereference) that stops the module. */
  datatype Abort =
    | NoTransmission        // tx_msg is NULL where it is dereferenced or asserted
    | SendToSelf            // a packet to send is addressed to this node
    | NothingPending        // contention timeout with proto_next_state NONE
    | ReceivingAtTimeout    // contention timeout while the radio is receiving
    | NavBusyAtTimeout      // contention timeout while the NAV is busy
    | InvalidNextState      // contention timeout with a pending action that is not a send
    | UnexpectedTimeout     // protocol timeout outside CONTEND and WFACK
    | UnexpectedTransmitDone // transmission done outside SEND_DATA and SEND_ACK
    | BadAckTarget          // ACK to send with no or a negative target
    | AckToMinusOne         // received ACK addressed to -1

  datatype Outcome = Ok(step: Step) | Fail(why: Abort)

  /** The effects `fx` happen before those of the step `s`. */
  function Prepend(fx: seq<Effect>, s: Step): Step
  {
    Step(s.mac, fx + s.fx)
  }
}
